=== FILE: README.md ===
# chatd integration, modelled in Dafny

This project models the deterministic rules inside the chatd integration plugin
of the MEGA web client (`js/chat/plugins/chatdIntegration.js`). The plugin
connects chat rooms to the chatd transport and to the strongvelope encryption
handler. It is asynchronous glue, but every callback runs to completion on one
event loop. Each callback is therefore modelled as a pure step over immutable
state. The API, chatd and strongvelope become inputs: their answers are
parameters, and the calls made to them are recorded outputs.

Modules, one per concern:

- `Js` (`js.dfy`): the JavaScript semantics the plugin relies on.
  - `Option` and `Result`.
  - String truthiness.
  - `removeValue`, as an assumed removal of one occurrence (see "## Left out").
  - String `<` as the lexicographic order `Below`, with its order lemmas.
  - The decimal spelling of an array index used as a property key.
- `Chat` (`chat.dfy`): the room record and the registry, that is `megaChat.chats` plus `chatIdToRoomJid`. It also holds `_getChatRoomFromEventData` and `join`.
- `Membership` (`membership.dfy`): the `onMembersUpdated` handler and its fold over an event stream.
- `ChatIdResolver` (`resolver.dfy`): `_retrieveChatdIdIfRequired`. This covers the `mcc` user list (filter, map, sort), the single-flight table `waitingChatIdPromises`, and settling a request.
- `Guards` (`guards.dfy`): the two gate decorators and the two decoration loops.
- `Decrypt` (`decrypt.dfy`): decrypt-result classification on the live path (`onNewMessageReceived`) and on the history path (`onHistoryFinished` with `notDecryptedBuffer`).
- `Send` (`send.dfy`): `sendMessage` target and mode selection, and `protocolHandlerRequiresKeysInit`.
- `Rooms` (`rooms.dfy`): the room decisions of `openChatFromApi`, and `_getKarereObjFromChatdObj`.

Quirks of the code are modelled as written, not corrected:

- The history loop deletes `notDecryptedBuffer[k]` using the batch index `k`, not the message key. `Decrypt.ApplyResults` deletes the property named by the decimal spelling of `k`. `Decrypt.DecryptedEntryLingers` shows that a decrypted message whose key is not an array index keeps its entry. While the message stays in `messagesBuff` this changes nothing, because the next history burst re-gathers every buffered message with a sender anyway (`Decrypt.Gather`). Once the message has left `messagesBuff`, a text result at that entry's index makes the write throw and ends the batch (`Decrypt.StaleEntryAborts`).
- `typeof v === undefined` compares a string with `undefined` and is never true, so that branch is absent.
- With no known contact among the participants, `_retrieveChatdIdIfRequired` returns without settling its promise. Every gated command on that room then stays pending (`Guards.UnknownParticipantsHang`).
- An exception from `encryptTo` is caught and logged, and the promise returned by `sendMessage` never settles (`Send.SendOutcome.Unsettled`).
- Writing to a buffered message that is missing throws a `TypeError`. In the history loop the enclosing `try` catches it, which ends the whole batch, including the results after it (`Batch.aborted`).
- `join` is wrapped only in the chat-id gate. The other six commands get both gates (`Guards.DecorationOrder`).
- The single-flight table `waitingChatIdPromises` is keyed by room JID.
- The `mcc` user list is sorted by the contact handle `u`, using string `<`.
- A send with no other member still calls the multi-recipient `encryptTo(message)` (`Send.AloneStillEncrypts`). The outcome is whatever that call returns.
- Replaying a history batch on its own result changes nothing (`Decrypt.BatchIdempotent`).

## Model

| member | source | states |
|---|---|---|
| `Js.RemoveValue` | js/chat/plugins/chatdIntegration.js:425 | removing a member takes away exactly one occurrence of that user when present and changes nothing otherwise |
| `Js.BelowTransitive` | js/chat/plugins/chatdIntegration.js:326-336 | the string order the sort comparator uses is transitive, so the comparator is a consistent order |
| `Js.BelowTotal` | js/chat/plugins/chatdIntegration.js:326-336 | any two different strings are ordered one way or the other, so the comparator returns 0 only for equal handles |
| `Js.Decimal` | js/chat/plugins/chatdIntegration.js:515 | a batch index used as a property key is a non-empty string of decimal digits that reads back as that index, so different indices name different properties |
| `Js.DecimalHasNoLeadingZero` | js/chat/plugins/chatdIntegration.js:515 | the key of an index starts with `0` exactly when the index is 0, and is then `"0"` itself |
| `Js.CanonicalDigitsAreDecimal` | js/chat/plugins/chatdIntegration.js:515 | every digit string without a leading zero is the key of exactly the index it reads as, so such a property name is hit by the delete at that batch index |
| `Chat.FindRoom` | js/chat/plugins/chatdIntegration.js:63-68 | an event's chat id finds a room exactly when it is mapped to a truthy room JID that is open; an unmapped or falsy mapping fails the assertion |
| `Chat.Join` | js/chat/plugins/chatdIntegration.js:668-685 | join proceeds exactly when the room has a chat id, a defined shard and a chatd URL; it passes them to chatd and maps the chat id to the room JID, leaving other mappings alone |
| `Chat.JoinRoutesEvents` | js/chat/plugins/chatdIntegration.js:63-68 | after a successful join, events carrying the room's chat id are routed to that room |
| `Membership.OnMembersUpdated` | js/chat/plugins/chatdIntegration.js:405-428 | before loading, an addressed event with privilege below 255 appends the user and the user's own event sets the loaded flag; after loading, only a privilege-255 event changes members, removing one occurrence of the user; unaddressed events change nothing |
| `Membership.LoadedIsSticky` | js/chat/plugins/chatdIntegration.js:415-424 | once members are loaded they stay loaded over any event sequence |
| `Membership.SnapshotIsAddOnly` | js/chat/plugins/chatdIntegration.js:415-423 | until the user's own event arrives, the members are the old members followed by the users added, in order; nothing is removed |
| `Membership.DeltasAreRemoveOnly` | js/chat/plugins/chatdIntegration.js:424-426 | after loading, the members are exactly the old members less the removals addressed to the room, one occurrence per removal and never below none; no user gains an entry |
| `Membership.TwoPhases` | js/chat/plugins/chatdIntegration.js:413-427 | a stream of snapshot, own event and deltas ends loaded, with members contained in the snapshot |
| `Membership.ApplyKeepsRoom` | js/chat/plugins/chatdIntegration.js:413-427 | the handler changes only the members and the loaded flag of a room |
| `Membership.ApplyAppend` | js/chat/plugins/chatdIntegration.js:405-428 | applying two event streams in turn is applying their concatenation |
| `ChatIdResolver.KnownContacts` | js/chat/plugins/chatdIntegration.js:309-323 | every participant with a known contact contributes `{u: handle, p: 3}`, and every entry comes from one such participant |
| `ChatIdResolver.KnownContactsCount` | js/chat/plugins/chatdIntegration.js:309-323 | each entry `{u, 3}` occurs exactly as many times as there are participants whose contact handle is `u`, and no other entry occurs |
| `ChatIdResolver.Insert` | js/chat/plugins/chatdIntegration.js:326-336 | inserting into a list sorted by `u` keeps it sorted and adds exactly that entry |
| `ChatIdResolver.SortByU` | js/chat/plugins/chatdIntegration.js:326-336 | the sorted user list is ascending by `u` and a permutation of its input |
| `ChatIdResolver.UserHashes` | js/chat/plugins/chatdIntegration.js:309-336 | the `mcc` user list is sorted by handle and holds exactly the known contacts of the other participants |
| `ChatIdResolver.SortedHeadsAgree` | js/chat/plugins/chatdIntegration.js:326-336 | two sorted invitation lists with the same entries start with the same entry |
| `ChatIdResolver.SortedIsUnique` | js/chat/plugins/chatdIntegration.js:326-336 | a sorted invitation list is determined by its entries |
| `ChatIdResolver.PayloadIsCanonical` | js/chat/plugins/chatdIntegration.js:309-336 | rooms whose participants yield the same known contacts, in any order, produce the same `mcc` payload |
| `ChatIdResolver.Retrieve` | js/chat/plugins/chatdIntegration.js:292-371 | a room with a chat id resolves at once with no request; a caller arriving while a request is pending joins it; otherwise a request is issued exactly when some other participant is a known contact, and then it is recorded as pending; with no known contact the call returns early, a lookup that never settles; in every other case nothing changes, and no lookup touches the registry or another room's request in flight |
| `ChatIdResolver.GatedJoin` | js/chat/plugins/chatdIntegration.js:248-260 | the join called after a response runs at once when the room has a chat id; otherwise its gate retrieves again; either way no room record changes, no other request in flight changes, no registration other than the room's own chat id changes, and at most one request is added, only when the room has no chat id |
| `ChatIdResolver.Settle` | js/chat/plugins/chatdIntegration.js:342-359 | the pending entry is removed whether the request succeeded or failed; on success the url, chat id and shard are copied into the room, whose other fields stay as they were, and a complete answer is joined and registered under the room's JID; no other room, no other room's request in flight and no registration under another chat id changes, and a new request is sent only when an answer lacks a chat id |
| `ChatIdResolver.RetrievePreserves` | js/chat/plugins/chatdIntegration.js:299-346 | a lookup keeps the invariant that each room's issued requests equal its settled ones plus its pending one |
| `ChatIdResolver.SettlePreserves` | js/chat/plugins/chatdIntegration.js:347-356 | settling keeps the same invariant |
| `ChatIdResolver.AtMostOneInFlight` | js/chat/plugins/chatdIntegration.js:299-349 | over any sequence of lookups and answers, a room never has more than one unsettled `mcc` request |
| `Guards.Decorate` | js/chat/plugins/chatdIntegration.js:786-813 | a gate stands in front of a command exactly when a decoration pass for that gate lists the command, the number of gates equals the number of passes that list the command, and the last such pass's gate is outermost |
| `Guards.ChatIdGateResult` | js/chat/plugins/chatdIntegration.js:248-290 | the chat-id gate lets the call through exactly when `mcf` and the retrieval resolve and the chat id is there at once or before the 30 s deadline; it waits forever when either promise never settles, and a rejected `mcf` or retrieval fails with its own reason |
| `Guards.ShardGateResult` | js/chat/plugins/chatdIntegration.js:373-397 | the shard gate lets the call through exactly when chatd knows the shard at once or before the 10 s deadline, fails with a shard timeout otherwise, and never waits forever |
| `Guards.RetrievalSettles` | js/chat/plugins/chatdIntegration.js:296-368 | the retrieval promise never settles exactly when no request is made for lack of known participants; it is rejected exactly when the request it follows fails; the room has a chat id afterwards exactly when it had one already or the request it follows answered with one, and then the promise resolved |
| `Guards.DecorationOrder` | js/chat/plugins/chatdIntegration.js:786-813 | the chat-id gate is outermost on every command; the shard gate sits inside it on all commands except `join`, which has only the chat-id gate |
| `Guards.InvokeUnfolds` | js/chat/plugins/chatdIntegration.js:248-290 | a gated call is the outer gate's decision followed by the inner gate's, then the command |
| `Guards.RunsOnlyWhenReady` | js/chat/plugins/chatdIntegration.js:255-275 | a gated command runs exactly when `mcf` and the retrieval resolve and the chat id is known in time and, except for `join`, the shard is known in time |
| `Guards.OuterGateFirst` | js/chat/plugins/chatdIntegration.js:381-390 | a chat-id failure rejects with its own reason and a pending chat-id gate hangs, whatever the shard does; a shard timeout is reported exactly when the chat id is known and the shard is not |
| `Guards.UnknownParticipantsHang` | js/chat/plugins/chatdIntegration.js:338-341 | a room without a chat id and with no known contacts issues no request, and every gated command on it stays pending |
| `Guards.KnownChatIdPasses` | js/chat/plugins/chatdIntegration.js:365-367 | a room with a chat id passes the chat-id gate without a request, so `join` runs |
| `Decrypt.Classify` | js/chat/plugins/chatdIntegration.js:513-520 | a result with a truthy payload gives that text; otherwise a decrypted result of type 0 marks a protocol message; anything else, a failed decryption included, leaves the message alone |
| `Decrypt.OnNewMessageReceived` | js/chat/plugins/chatdIntegration.js:588-626 | an empty message is ignored; a returned result submits its `toSend` reply, sets the text for a payload, or marks a type-0 result without payload as a protocol message, and otherwise leaves the message; a throw changes nothing |
| `Decrypt.Put` | js/chat/plugins/chatdIntegration.js:480-485 | assigning a buffer property keeps the places of existing properties and adds a new one last |
| `Decrypt.PutKeepsShape` | js/chat/plugins/chatdIntegration.js:480-485 | assigning a property adds exactly its key to the key set and keeps the keys distinct and each entry tagged with its own key |
| `Decrypt.PutOverwrites` | js/chat/plugins/chatdIntegration.js:480-485 | in a buffer with distinct keys, the property assigned holds the new entry and no stale entry under that key survives |
| `Decrypt.Delete` | js/chat/plugins/chatdIntegration.js:515 | deleting a property removes exactly the entries under that key and keeps the rest in their order |
| `Decrypt.Gather` | js/chat/plugins/chatdIntegration.js:473-487 | afterwards `notDecryptedBuffer` has exactly its old keys plus the keys of the buffered messages with a sender, still distinct and each entry tagged with its own key |
| `Decrypt.GatherKeepsPlaces` | js/chat/plugins/chatdIntegration.js:473-487 | every property already in `notDecryptedBuffer` keeps its place |
| `Decrypt.GatherKeepsOrder` | js/chat/plugins/chatdIntegration.js:473-487 | the properties added come after the old ones, in the order of the buffered messages |
| `Decrypt.GatherKeepsOthers` | js/chat/plugins/chatdIntegration.js:473-487 | every entry afterwards either was there before or sits under a sender's key and is made from that message's contents, sender and delay |
| `Decrypt.GatherStores` | js/chat/plugins/chatdIntegration.js:480-485 | with distinct keys, the entry under each sender's key is made from that message's contents, sender and delay, whatever was there before |
| `Decrypt.TaggedHistIsDistinct` | js/chat/plugins/chatdIntegration.js:489-496 | a batch built from a well-formed buffer writes to different messages |
| `Decrypt.ApplyResults` | js/chat/plugins/chatdIntegration.js:508-524 | the result loop keeps the set of buffered messages, only ever deletes buffer entries, and never deletes an entry whose key is not an array index |
| `Decrypt.BatchDeletes` | js/chat/plugins/chatdIntegration.js:506-515 | a batch that runs to the end deletes exactly the buffer entries whose key is the decimal spelling of a batch index holding a payload result, and keeps every other entry |
| `Decrypt.OthersUntouched` | js/chat/plugins/chatdIntegration.js:513-520 | the result loop writes only to messages the batch names |
| `Decrypt.CoveredBatchCompletes` | js/chat/plugins/chatdIntegration.js:507-524 | when every result has an entry whose message is still buffered, no write throws and the loop runs to the end |
| `Decrypt.BatchClassifies` | js/chat/plugins/chatdIntegration.js:513-520 | a batch that completes gives each message the text, the protocol flag, or nothing, according to the same classification as the live path |
| `Decrypt.BatchIdempotent` | js/chat/plugins/chatdIntegration.js:508-524 | replaying a batch on its own outcome changes neither the messages nor the buffer |
| `Decrypt.DecryptedEntryLingers` | js/chat/plugins/chatdIntegration.js:513-516 | a message decrypted by the batch whose key is not an array index still keeps its undecrypted entry, because the delete uses the batch index |
| `Decrypt.StaleEntryAborts` | js/chat/plugins/chatdIntegration.js:513-515 | an entry whose message has left the buffer ends the batch, at its own index or earlier, when a text result arrives for it |
| `Decrypt.OnHistoryFinished` | js/chat/plugins/chatdIntegration.js:472-550 | decryption runs exactly when the batch is non-empty and a handler exists or is being set up; the next page is requested exactly when it ran, `seed` returned false and more history exists; when nothing runs or decryption throws, the messages are untouched |
| `Decrypt.LiveAndHistoryAgree` | js/chat/plugins/chatdIntegration.js:513-520 | the live path's conditions and the history loop's treat a result alike |
| `Send.RequiresKeysInit` | js/chat/plugins/chatdIntegration.js:708-717 | a sender key is generated exactly for a new session, where the handler has neither a previous nor a current key id |
| `Send.Targets` | js/chat/plugins/chatdIntegration.js:726-727 | the targets are the members with one occurrence of the user removed |
| `Send.SendMessage` | js/chat/plugins/chatdIntegration.js:719-777 | exactly one target uses `encryptTo(message, target)` and any other count uses `encryptTo(message)`; keys are initialised first exactly for a new session; `false` rejects, a ciphertext resolves with its submit, and a throw or a missing handler leaves the promise pending |
| `Send.AloneStillEncrypts` | js/chat/plugins/chatdIntegration.js:751-756 | with no other member the multi-recipient form is still called |
| `Send.GuardedSend` | js/chat/plugins/chatdIntegration.js:785-813 | `sendMessage` runs only once both gates are satisfied, and then it behaves as the ungated send |
| `Rooms.RoomJidFor` | js/chat/plugins/chatdIntegration.js:187-194 | the room JID is the generated room name followed by `@conference.` and the XMPP domain; the name comes from the participants unless `g` is 1, and from the chat id when it is |
| `Rooms.SameRoomIffSameName` | js/chat/plugins/chatdIntegration.js:187-194 | two packets address the same room JID exactly when their generated room names agree |
| `Rooms.OpenChatFromApi` | js/chat/plugins/chatdIntegration.js:167-245 | a packet without participants throws and one with fewer than two is ignored; the URL is looked up exactly when the packet and the room both lack one, and a failed lookup ends processing; an unknown room is opened as a group exactly when `g` is 1 and announced exactly for the user's own fresh non-`mcf` creation; an existing room adopts the packet's id, shard and URL only when it has no chat id; every decision to open, adopt or keep a room addresses the room JID built from the packet, and a new room is opened with the packet's users mapped to JIDs |
| `Rooms.Adopt` | js/chat/plugins/chatdIntegration.js:220-226 | adopting changes only the addressed room's chat id, shard and URL |
| `Rooms.ChatIdIsKeptByPackets` | js/chat/plugins/chatdIntegration.js:220-226 | a room's chat id, once set, is never overwritten by an action packet |
| `Rooms.ReplayAfterAdoptKeeps` | js/chat/plugins/chatdIntegration.js:220-244 | replaying a packet that gave a room its chat id keeps the room as it is, or stops at a failed URL lookup |
| `Rooms.ToKarere` | js/chat/plugins/chatdIntegration.js:70-121 | a message without a sender, or from the user, becomes an outgoing message and any other an incoming one; both carry the room JID, id, contents, timestamp and seen flag; an unknown chat id or a missing room fails |
| `Rooms.JoinedRoomReceivesMessages` | js/chat/plugins/chatdIntegration.js:63-80 | once a room is joined, every chatd message carrying its chat id becomes a karere message addressed to that room, incoming exactly when it has a sender other than the user |

## Left out

- Timers and polling: `createTimeoutPromise` intervals and deadlines are reduced to whether a gate's condition holds before its deadline (`Guards.GateEnv`).
- Promise plumbing (`MegaPromise`, `allDone`, linking) is left out. Each callback is one atomic step, and a promise is described only by how it ends.
- Network calls (`mcf`, `mcc`, `mcurl`, `mcr`, `mci`, chatd `join/submit/hist/cmd/modify`) are left out. Their answers are parameters and their requests are recorded values.
- The bodies of the six chatd commands, which only forward to chatd, are left out. The model covers only whether they run.
- Cryptography is left out: strongvelope (`encryptTo`, `decryptFrom`, `seed`, `batchDecrypt`, `updateSenderKey`), the key fetches (`getPubCu25519`, `getPubRSA`), authring, and the global key caches. Only the shapes of their results are modelled.
- The key prefetch and protocol-handler construction in `_attachToChatRoom` are left out. Whether a handler is ready is an input (`Decrypt.HandlerState`).
- Event wiring (`rebind`, `makeObservable`, jQuery triggers), logging, `debugger`, and `window.location` navigation are left out.
- `alterParticipants`, called when the user has just created a room, is left out. It is recorded only as the `announce` flag.
- The `ws:` to `wss:` and host rewrite of the chatd URL in `join` is left out. `Chat.JoinCommand` carries the URL as stored.
- `base64urldecode` and `pack32le` are not part of this model.
- `getParticipantsExceptMe`, `getContactFromJid`, `getJidFromNodeId` and the room-name generators are not part of this model.
  - `getParticipantsExceptMe` is assumed to drop the user's JID the way `removeValue` does.
  - The other three are parameters (a contact map and functions).
- `removeValue` is not part of this model. `Js.RemoveValue` assumes it drops the first occurrence of the value and leaves an array without the value unchanged. It is used at :425 and :727.
- The `ChatRoom` constructor is not part of this model. `membersLoaded` is a boolean, assumed to start `false`.
- `Object.keys` lists integer-like keys first. That reordering of `notDecryptedBuffer` is not modelled: properties keep insertion order.
- Decrypt.OnHistoryFinished: with a handler still being set up (`AfterSetup`), decryption is modelled on the state at the time of the history event, not on the later state when the setup resolves.
- Decrypt.OnHistoryFinished: its own contract does not repeat the per-message effect of a completed batch. `Decrypt.BatchClassifies` states that effect.
- ChatIdResolver.GatedJoin: when the response carries no chat id, the join's gate retrieves again. Only that re-retrieval is modelled, not the continuation the gate waits on. Its contract then states only the frame: the rooms are unchanged, the other requests in flight are kept, and at most one request is added.
- Rooms.OpenChatFromApi: the model reads the room's chat id from the state before the `mcurl` request. The code looks the room up before the request too (:196), but reads its `chatId` only once the request resolves (:223). A chat id set in between, for example by a settling `mcc` request, turns the code's adopt decision into a keep; the model does not take it into account.

=== FILE: chat.dfy ===
/** The chat-room state the integration layer reads and writes, the
    registry that routes chatd events to rooms, and the `join` step. */
module Chat {
  import opened Js

  datatype RoomType = Private | Group

  /** A chat room as the integration layer sees it. `chatId` and `chatdUrl`
      are falsy while unknown; `chatShard` is `None` while `undefined`
      (shard 0 is a valid, defined shard). */
  datatype Room = Room(
    roomJid: string,
    roomType: RoomType,
    participants: seq<string>,
    chatId: string,
    chatShard: Option<int>,
    chatdUrl: string,
    members: seq<string>,
    membersLoaded: bool
  )

  /** `megaChat.chats` (rooms by room JID) together with the integration's
      own `chatIdToRoomJid` table. */
  datatype Registry = Registry(chats: map<string, Room>, chatIdToRoomJid: map<string, string>)

  datatype LookupFault =
    | UnknownChatId   // the assertion on the room JID throws
    | RoomNotFound    // the JID is registered but no such room is open

  /** `_getChatRoomFromEventData`: resolve a chatd event's chat id to its room. */
  function FindRoom(reg: Registry, chatId: string): (r: Result<Room, LookupFault>)
    ensures r.Ok? <==>
      chatId in reg.chatIdToRoomJid && Truthy(reg.chatIdToRoomJid[chatId])
      && reg.chatIdToRoomJid[chatId] in reg.chats
    ensures r.Ok? ==> r.value == reg.chats[reg.chatIdToRoomJid[chatId]]
    ensures r == Err(UnknownChatId) <==>
      chatId !in reg.chatIdToRoomJid || !Truthy(reg.chatIdToRoomJid[chatId])
  {
    if chatId !in reg.chatIdToRoomJid || !Truthy(reg.chatIdToRoomJid[chatId]) then Err(UnknownChatId)
    else if reg.chatIdToRoomJid[chatId] !in reg.chats then Err(RoomNotFound)
    else Ok(reg.chats[reg.chatIdToRoomJid[chatId]])
  }

  /** What `chatd.join` is handed. The URL rewrite applied on the way is
      not part of this model. */
  datatype JoinCommand = JoinCommand(chatId: string, shard: int, url: string)

  datatype JoinFault = MissingConnectionDetails

  /** `join`: asserts that the room has a chat id, a defined shard and a
      chatd URL, issues the chatd join and records `chatId -> roomJid`. */
  function Join(reg: Registry, room: Room): (r: Result<(Registry, JoinCommand), JoinFault>)
    ensures r.Ok? <==> Truthy(room.chatId) && room.chatShard.Some? && Truthy(room.chatdUrl)
    ensures r.Ok? ==> r.value.1 == JoinCommand(room.chatId, room.chatShard.value, room.chatdUrl)
    ensures r.Ok? ==> r.value.0.chats == reg.chats
    ensures r.Ok? ==> r.value.0.chatIdToRoomJid.Keys == reg.chatIdToRoomJid.Keys + {room.chatId}
    ensures r.Ok? ==> r.value.0.chatIdToRoomJid[room.chatId] == room.roomJid
    ensures r.Ok? ==> forall c :: c in reg.chatIdToRoomJid && c != room.chatId ==>
      r.value.0.chatIdToRoomJid[c] == reg.chatIdToRoomJid[c]
  {
    if Truthy(room.chatId) && room.chatShard.Some? && Truthy(room.chatdUrl) then
      Ok((reg.(chatIdToRoomJid := reg.chatIdToRoomJid[room.chatId := room.roomJid]),
          JoinCommand(room.chatId, room.chatShard.value, room.chatdUrl)))
    else
      Err(MissingConnectionDetails)
  }

  /** After a successful join of an open room, chatd events carrying its
      chat id are routed to that room. */
  lemma JoinRoutesEvents(reg: Registry, room: Room)
    requires Join(reg, room).Ok?
    requires room.roomJid in reg.chats && Truthy(room.roomJid)
    ensures FindRoom(Join(reg, room).value.0, room.chatId) == Ok(reg.chats[room.roomJid])
  {
  }
}

=== FILE: decrypt.dfy ===
/** What the integration does with strongvelope's decrypt results: the
    live path (`onNewMessageReceived`) and the history path
    (`onHistoryFinished`, with its `notDecryptedBuffer`). */
module Decrypt {
  import opened Js

  /** A decrypt result as the integration reads it: falsy, or an object
      whose `payload`, `toSend` and `type` may each be undefined. */
  datatype DecryptResult =
    | Falsy
    | Decrypted(payload: Option<string>, toSend: Option<string>, msgType: Option<int>)

  predicate HasPayload(v: DecryptResult) {
    v.Decrypted? && v.payload.Some? && Truthy(v.payload.value)
  }

  predicate HasToSend(v: DecryptResult) {
    v.Decrypted? && v.toSend.Some? && Truthy(v.toSend.value)
  }

  /** A buffered message, reduced to what this layer reads and writes. */
  datatype Message = Message(userId: string, contents: string, delay: int, textContents: Option<string>, protocol: bool)

  /** The three ways a result is taken. */
  datatype Class = Text(payload: string) | System | Untouched

  /** The classification both paths follow: a payload is the message text,
      no payload with type 0 marks a protocol message, anything else is
      only logged. */
  function Classify(v: DecryptResult): (c: Class)
    ensures c.Text? <==> HasPayload(v)
    ensures c.Text? ==> v.payload == Some(c.payload)
    ensures c == System <==> v.Decrypted? && !HasPayload(v) && v.msgType == Some(0)
    ensures !v.Decrypted? ==> c == Untouched
  {
    if HasPayload(v) then Text(v.payload.value)
    else if v.Decrypted? && v.msgType == Some(0) then System
    else Untouched
  }

  function Effect(m: Message, c: Class): Message {
    match c
    case Text(p) => m.(textContents := Some(p))
    case System => m.(protocol := true)
    case Untouched => m
  }

  // ---------------------------------------------------------------- live path

  /** `decryptFrom` either throws (also when there is no protocol handler
      yet) or returns a result. */
  datatype LiveDecrypt = DecryptThrew | Returned(v: DecryptResult)

  datatype LiveOutcome = LiveOutcome(messages: map<string, Message>, submitted: seq<string>, decryptCalled: bool)

  /** `onNewMessageReceived` once the sender's keys were fetched (or failed
      to be). An update of a message missing from the buffer throws and is
      caught, after the reply has been submitted. */
  function OnNewMessageReceived(messages: map<string, Message>, messageId: string, message: string, decrypt: LiveDecrypt): (r: LiveOutcome)
    ensures r.decryptCalled <==> Truthy(message)
    ensures r.messages.Keys == messages.Keys
    ensures !(Truthy(message) && decrypt.Returned?) ==> r.messages == messages && r.submitted == []
    ensures Truthy(message) && decrypt.Returned? ==>
      && r.submitted == (if HasToSend(decrypt.v) then [decrypt.v.toSend.value] else [])
      && r.messages == if messageId in messages
                       then messages[messageId := Effect(messages[messageId], Classify(decrypt.v))]
                       else messages
  {
    if !Truthy(message) then LiveOutcome(messages, [], false)
    else match decrypt
      case DecryptThrew => LiveOutcome(messages, [], true)
      case Returned(v) =>
        var sent := if v.Decrypted? && v.toSend.Some? && Truthy(v.toSend.value) then [v.toSend.value] else [];
        if v.Decrypted? && v.payload.Some? && Truthy(v.payload.value) then
          if messageId in messages
          then LiveOutcome(messages[messageId := messages[messageId].(textContents := v.payload)], sent, true)
          else LiveOutcome(messages, sent, true)
        else if v.Decrypted? && !(v.payload.Some? && Truthy(v.payload.value)) && v.msgType == Some(0) then
          if messageId in messages
          then LiveOutcome(messages[messageId := messages[messageId].(protocol := true)], sent, true)
          else LiveOutcome(messages, sent, true)
        else LiveOutcome(messages, sent, true)
  }

  // ------------------------------------------------------------- history path

  /** One `notDecryptedBuffer` entry; `k` is the key of its message. */
  datatype Entry = Entry(message: string, userId: string, ts: int, k: string)

  /** A property of the `notDecryptedBuffer` object, in insertion order. */
  datatype Slot = Slot(key: string, entry: Entry)

  function KeySet(nd: seq<Slot>): set<string> {
    set s | s in nd :: s.key
  }

  /** The property names in enumeration order. */
  function KeyOrder(nd: seq<Slot>): (r: seq<string>)
    ensures |r| == |nd| && forall i :: 0 <= i < |nd| ==> r[i] == nd[i].key
  {
    seq(|nd|, i requires 0 <= i < |nd| => nd[i].key)
  }

  /** `a` is `b` with some elements left out, the rest in the same order. */
  predicate Subsequence<T(==)>(a: seq<T>, b: seq<T>)
    decreases |b|
  {
    if |a| == 0 then true
    else if |b| == 0 then false
    else (a[0] == b[0] && Subsequence(a[1..], b[1..])) || Subsequence(a, b[1..])
  }

  predicate DistinctKeys(nd: seq<Slot>) {
    forall i, j :: 0 <= i < j < |nd| ==> nd[i].key != nd[j].key
  }

  /** Every entry names its own key. */
  predicate Tagged(nd: seq<Slot>) {
    forall i :: 0 <= i < |nd| ==> nd[i].entry.k == nd[i].key
  }

  /** `nd[key] = e`: an existing property keeps its place, a new one goes last. */
  function Put(nd: seq<Slot>, key: string, e: Entry): (r: seq<Slot>)
    ensures |nd| <= |r| <= |nd| + 1
    ensures forall i :: 0 <= i < |nd| ==> r[i].key == nd[i].key
    ensures forall i :: 0 <= i < |r| ==> r[i] == Slot(key, e) || (i < |nd| && r[i] == nd[i])
    ensures |r| == |nd| + 1 ==> r[|nd|] == Slot(key, e) && key !in KeySet(nd)
    ensures key in KeySet(r)
    decreases |nd|
  {
    if |nd| == 0 then [Slot(key, e)]
    else if nd[0].key == key then
      [Slot(key, e)] + nd[1..]
    else
      assert nd == [nd[0]] + nd[1..];
      var rest := Put(nd[1..], key, e);
      assert rest[0] in rest;
      [nd[0]] + rest
  }

  lemma PutKeepsShape(nd: seq<Slot>, key: string, e: Entry)
    ensures DistinctKeys(nd) ==> DistinctKeys(Put(nd, key, e))
    ensures Tagged(nd) && e.k == key ==> Tagged(Put(nd, key, e))
    ensures KeySet(Put(nd, key, e)) == KeySet(nd) + {key}
  {
    var r := Put(nd, key, e);
    forall x | x in KeySet(nd)
      ensures x in KeySet(r)
    {
      var i :| 0 <= i < |nd| && nd[i].key == x;
      assert r[i] in r;
    }
    forall x | x in KeySet(r)
      ensures x in KeySet(nd) + {key}
    {
      var i :| 0 <= i < |r| && r[i].key == x;
      if r[i] != Slot(key, e) {
        assert nd[i] in nd;
      }
    }
    if DistinctKeys(nd) && |r| == |nd| + 1 {
      forall i | 0 <= i < |nd|
        ensures r[i].key != key
      {
        assert nd[i] in nd;
      }
    }
  }

  /** In a buffer with distinct keys the written property is the only one
      with that key, so it holds the new entry. */
  lemma {:induction false} PutOverwrites(nd: seq<Slot>, key: string, e: Entry, s: Slot)
    requires DistinctKeys(nd) && s in Put(nd, key, e) && s.key == key
    ensures s == Slot(key, e)
    decreases |nd|
  {
    if |nd| > 0 {
      assert nd == [nd[0]] + nd[1..];
      if nd[0].key != key && s != nd[0] {
        PutOverwrites(nd[1..], key, e, s);
      }
    }
  }

  /** `delete nd[key]`: the other properties keep their order. */
  function Delete(nd: seq<Slot>, key: string): (r: seq<Slot>)
    ensures forall s :: s in r <==> s in nd && s.key != key
    ensures Subsequence(r, nd)
    ensures key !in KeySet(nd) ==> r == nd
    ensures DistinctKeys(nd) ==> DistinctKeys(r)
    ensures Tagged(nd) ==> Tagged(r)
    decreases |nd|
  {
    if |nd| == 0 then []
    else
      assert nd == [nd[0]] + nd[1..];
      if nd[0].key == key then Delete(nd[1..], key)
      else
        var rest := Delete(nd[1..], key);
        assert ([nd[0]] + rest)[1..] == rest;
        [nd[0]] + rest
  }

  /** The keys of the buffered messages that have a sender. */
  function Senders(order: seq<string>, messages: map<string, Message>): set<string>
    requires forall i :: 0 <= i < |order| ==> order[i] in messages
  {
    set i | 0 <= i < |order| && Truthy(messages[order[i]].userId) :: order[i]
  }

  lemma SendersCons(order: seq<string>, messages: map<string, Message>)
    requires |order| > 0 && forall i :: 0 <= i < |order| ==> order[i] in messages
    ensures Senders(order, messages) ==
      (if Truthy(messages[order[0]].userId) then {order[0]} else {}) + Senders(order[1..], messages)
  {
    var head := if Truthy(messages[order[0]].userId) then {order[0]} else {};
    forall x | x in Senders(order, messages)
      ensures x in head + Senders(order[1..], messages)
    {
      var i :| 0 <= i < |order| && Truthy(messages[order[i]].userId) && order[i] == x;
      if i > 0 {
        assert order[1..][i - 1] == x;
      }
    }
    forall x | x in Senders(order[1..], messages)
      ensures x in Senders(order, messages)
    {
      var i :| 0 <= i < |order[1..]| && Truthy(messages[order[1..][i]].userId) && order[1..][i] == x;
      assert order[i + 1] == x;
    }
  }

  /** The `notDecryptedBuffer` entry made from the buffered message `key`. */
  function EntryFor(messages: map<string, Message>, key: string): (e: Entry)
    requires key in messages
    ensures e.k == key
  {
    var m := messages[key];
    Entry(m.contents, m.userId, m.delay, key)
  }

  /** Collects every buffered message with a sender into `nd`, keyed by its
      message key, in buffer order: the keys afterwards are the old ones
      plus those of the senders' messages. */
  function Gather(order: seq<string>, messages: map<string, Message>, nd: seq<Slot>): (r: seq<Slot>)
    requires forall i :: 0 <= i < |order| ==> order[i] in messages
    ensures DistinctKeys(nd) ==> DistinctKeys(r)
    ensures Tagged(nd) ==> Tagged(r)
    ensures KeySet(r) == KeySet(nd) + Senders(order, messages)
    decreases |order|
  {
    if |order| == 0 then nd
    else
      var key := order[0];
      var nd' := if Truthy(messages[key].userId) then Put(nd, key, EntryFor(messages, key)) else nd;
      PutKeepsShape(nd, key, EntryFor(messages, key));
      SendersCons(order, messages);
      Gather(order[1..], messages, nd')
  }

  /** `Gather` only adds entries made from senders' messages: any other
      entry is one that was there before. */
  lemma {:induction false} GatherKeepsOthers(order: seq<string>, messages: map<string, Message>, nd: seq<Slot>)
    requires forall i :: 0 <= i < |order| ==> order[i] in messages
    ensures forall s :: s in Gather(order, messages, nd) ==>
      s in nd || (s.key in Senders(order, messages) && s.entry == EntryFor(messages, s.key))
    decreases |order|
  {
    if |order| > 0 {
      var key := order[0];
      var nd' := if Truthy(messages[key].userId) then Put(nd, key, EntryFor(messages, key)) else nd;
      GatherKeepsOthers(order[1..], messages, nd');
      SendersCons(order, messages);
    }
  }

  /** The properties `Gather` adds come after the old ones, in buffer order. */
  lemma {:induction false} GatherKeepsOrder(order: seq<string>, messages: map<string, Message>, nd: seq<Slot>)
    requires forall i :: 0 <= i < |order| ==> order[i] in messages
    ensures |nd| <= |Gather(order, messages, nd)|
    ensures Subsequence(KeyOrder(Gather(order, messages, nd)[|nd|..]), order)
    decreases |order|
  {
    if |order| == 0 {
      assert Gather(order, messages, nd)[|nd|..] == [];
    } else {
      var key := order[0];
      var nd' := if Truthy(messages[key].userId) then Put(nd, key, EntryFor(messages, key)) else nd;
      var r' := Gather(order[1..], messages, nd');
      assert Gather(order, messages, nd) == r';
      GatherKeepsOrder(order[1..], messages, nd');
      GatherKeepsPlaces(order[1..], messages, nd');
      if |nd'| == |nd| {
        SubsequenceSkip(KeyOrder(r'[|nd|..]), order);
      } else {
        var t := KeyOrder(r'[|nd|..]);
        assert t[0] == r'[|nd|].key == nd'[|nd|].key == order[0];
        assert t[1..] == KeyOrder(r'[|nd'|..]);
        SubsequenceTake(t, order);
      }
    }
  }

  /** `Gather` keeps every property already in the buffer in its place. */
  lemma {:induction false} GatherKeepsPlaces(order: seq<string>, messages: map<string, Message>, nd: seq<Slot>)
    requires forall i :: 0 <= i < |order| ==> order[i] in messages
    ensures |nd| <= |Gather(order, messages, nd)|
    ensures forall i :: 0 <= i < |nd| ==> Gather(order, messages, nd)[i].key == nd[i].key
    decreases |order|
  {
    if |order| > 0 {
      var key := order[0];
      var nd' := if Truthy(messages[key].userId) then Put(nd, key, EntryFor(messages, key)) else nd;
      GatherKeepsPlaces(order[1..], messages, nd');
    }
  }

  lemma SubsequenceTake<T>(a: seq<T>, b: seq<T>)
    requires |a| > 0 && |b| > 0 && a[0] == b[0] && Subsequence(a[1..], b[1..])
    ensures Subsequence(a, b)
  {
  }

  lemma SubsequenceSkip<T>(a: seq<T>, b: seq<T>)
    requires |b| > 0 && Subsequence(a, b[1..])
    ensures Subsequence(a, b)
  {
  }

  /** In a buffer with distinct keys, the entry under a sender's key is
      the one made from that message. */
  lemma {:induction false} GatherStores(order: seq<string>, messages: map<string, Message>, nd: seq<Slot>)
    requires forall i :: 0 <= i < |order| ==> order[i] in messages
    requires DistinctKeys(nd)
    ensures forall s :: s in Gather(order, messages, nd) && s.key in Senders(order, messages) ==>
      s.entry == EntryFor(messages, s.key)
    decreases |order|
  {
    if |order| > 0 {
      var key := order[0];
      var nd' := if Truthy(messages[key].userId) then Put(nd, key, EntryFor(messages, key)) else nd;
      PutKeepsShape(nd, key, EntryFor(messages, key));
      GatherStores(order[1..], messages, nd');
      GatherKeepsOthers(order[1..], messages, nd');
      SendersCons(order, messages);
      if Truthy(messages[key].userId) {
        forall s | s in nd' && s.key == key
          ensures s.entry == EntryFor(messages, key)
        {
          PutOverwrites(nd, key, EntryFor(messages, key), s);
        }
      }
    }
  }

  function Hist(nd: seq<Slot>): (r: seq<Entry>)
    ensures |r| == |nd|
    ensures forall i :: 0 <= i < |nd| ==> r[i] == nd[i].entry
  {
    seq(|nd|, i requires 0 <= i < |nd| => nd[i].entry)
  }

  /** Messages the batch writes to are all different. */
  predicate HistKeysDistinct(hist: seq<Entry>) {
    forall i, j :: 0 <= i < j < |hist| ==> hist[i].k != hist[j].k
  }

  lemma TaggedHistIsDistinct(nd: seq<Slot>)
    requires DistinctKeys(nd) && Tagged(nd)
    ensures HistKeysDistinct(Hist(nd))
  {
  }

  datatype Batch = Batch(messages: map<string, Message>, nd: seq<Slot>, aborted: bool)

  /** The property keys of the batch indices from `k` on whose result is a
      text: what a completed loop deletes. */
  function IndexKeys(results: seq<DecryptResult>, k: nat): set<string> {
    set j: nat | k <= j < |results| && HasPayload(results[j]) :: Decimal(j)
  }

  lemma IndexKeysCons(results: seq<DecryptResult>, k: nat)
    requires k < |results|
    ensures IndexKeys(results, k) == (if HasPayload(results[k]) then {Decimal(k)} else {}) + IndexKeys(results, k + 1)
  {
    var head: set<string> := if HasPayload(results[k]) then {Decimal(k)} else {};
    forall x | x in IndexKeys(results, k)
      ensures x in head + IndexKeys(results, k + 1)
    {
      var j: nat :| k <= j < |results| && HasPayload(results[j]) && Decimal(j) == x;
      if j > k {
        assert x in IndexKeys(results, k + 1);
      }
    }
    forall x | x in head + IndexKeys(results, k + 1)
      ensures x in IndexKeys(results, k)
    {
      if x !in head {
        var j: nat :| k + 1 <= j < |results| && HasPayload(results[j]) && Decimal(j) == x;
        assert k <= j;
      }
    }
  }

  /** The `decryptedMsgs.forEach` loop from index `k` on. A write to a
      message throws when the index is past the batch or its key is not in
      the buffer, which ends the loop. After a text write the
      `notDecryptedBuffer` property named by the batch index `k` is
      deleted, not the one named by the message key. */
  function ApplyResults(messages: map<string, Message>, nd: seq<Slot>, hist: seq<Entry>, results: seq<DecryptResult>, k: nat): (r: Batch)
    ensures r.messages.Keys == messages.Keys
    ensures forall s :: s in r.nd ==> s in nd
    ensures forall s :: s in nd && !AllDigits(s.key) ==> s in r.nd
    decreases |results| - k
  {
    if k >= |results| then Batch(messages, nd, false)
    else
      var v := results[k];
      if v.Decrypted? && v.payload.Some? && Truthy(v.payload.value) then
        if k >= |hist| || hist[k].k !in messages then Batch(messages, nd, true)
        else
          var key := hist[k].k;
          ApplyResults(messages[key := messages[key].(textContents := v.payload)], Delete(nd, Decimal(k)), hist, results, k + 1)
      else if v.Decrypted? && v.msgType == Some(0) then
        if k >= |hist| || hist[k].k !in messages then Batch(messages, nd, true)
        else
          var key := hist[k].k;
          ApplyResults(messages[key := messages[key].(protocol := true)], nd, hist, results, k + 1)
      else ApplyResults(messages, nd, hist, results, k + 1)
  }

  /** A loop that runs to the end deletes exactly the properties named by
      the indices of its text results, and keeps every other entry. */
  lemma {:induction false} BatchDeletes(messages: map<string, Message>, nd: seq<Slot>, hist: seq<Entry>, results: seq<DecryptResult>, k: nat)
    requires !ApplyResults(messages, nd, hist, results, k).aborted
    ensures forall s :: s in nd ==>
      (s in ApplyResults(messages, nd, hist, results, k).nd <==> s.key !in IndexKeys(results, k))
    decreases |results| - k
  {
    if k >= |results| {
      assert IndexKeys(results, k) == {};
    } else {
      var v := results[k];
      IndexKeysCons(results, k);
      if HasPayload(v) {
        var key := hist[k].k;
        BatchDeletes(messages[key := messages[key].(textContents := v.payload)], Delete(nd, Decimal(k)), hist, results, k + 1);
      } else if v.Decrypted? && v.msgType == Some(0) {
        var key := hist[k].k;
        BatchDeletes(messages[key := messages[key].(protocol := true)], nd, hist, results, k + 1);
      } else {
        BatchDeletes(messages, nd, hist, results, k + 1);
      }
    }
  }

  /** The loop writes only to messages the batch names. */
  lemma {:induction false} OthersUntouched(messages: map<string, Message>, nd: seq<Slot>, hist: seq<Entry>, results: seq<DecryptResult>, k: nat, key: string)
    requires key in messages && forall j :: k <= j < |hist| ==> hist[j].k != key
    ensures ApplyResults(messages, nd, hist, results, k).messages[key] == messages[key]
    decreases |results| - k
  {
    if k < |results| && k < |hist| && hist[k].k in messages {
      var v := results[k];
      var other := hist[k].k;
      assert other != key;
      if HasPayload(v) {
        OthersUntouched(messages[other := messages[other].(textContents := v.payload)], Delete(nd, Decimal(k)), hist, results, k + 1, key);
      } else if v.Decrypted? && v.msgType == Some(0) {
        OthersUntouched(messages[other := messages[other].(protocol := true)], nd, hist, results, k + 1, key);
      } else {
        OthersUntouched(messages, nd, hist, results, k + 1, key);
      }
    } else if k < |results| {
      OthersUntouched(messages, nd, hist, results, k + 1, key);
    }
  }

  /** A batch no longer than its list of entries, all of whose messages are
      still buffered, runs to the end. */
  lemma {:induction false} CoveredBatchCompletes(messages: map<string, Message>, nd: seq<Slot>, hist: seq<Entry>, results: seq<DecryptResult>, k: nat)
    requires |results| <= |hist|
    requires forall i :: k <= i < |hist| ==> hist[i].k in messages
    ensures !ApplyResults(messages, nd, hist, results, k).aborted
    decreases |results| - k
  {
    if k < |results| {
      var v := results[k];
      var key := hist[k].k;
      if HasPayload(v) {
        CoveredBatchCompletes(messages[key := messages[key].(textContents := v.payload)], Delete(nd, Decimal(k)), hist, results, k + 1);
      } else if v.Decrypted? && v.msgType == Some(0) {
        CoveredBatchCompletes(messages[key := messages[key].(protocol := true)], nd, hist, results, k + 1);
      } else {
        CoveredBatchCompletes(messages, nd, hist, results, k + 1);
      }
    }
  }

  /** A batch that runs to the end applies the shared classification to
      every message it covers. */
  lemma {:induction false} BatchClassifies(messages: map<string, Message>, nd: seq<Slot>, hist: seq<Entry>, results: seq<DecryptResult>, k: nat, j: nat)
    requires HistKeysDistinct(hist)
    requires !ApplyResults(messages, nd, hist, results, k).aborted
    requires k <= j < |results| && j < |hist| && hist[j].k in messages
    ensures ApplyResults(messages, nd, hist, results, k).messages[hist[j].k] ==
      Effect(messages[hist[j].k], Classify(results[j]))
    decreases |results| - k
  {
    var v := results[k];
    var key := hist[k].k;
    if j == k {
      if HasPayload(v) {
        var m' := messages[key := messages[key].(textContents := v.payload)];
        assert forall i :: k + 1 <= i < |hist| ==> hist[i].k != key;
        OthersUntouched(m', Delete(nd, Decimal(k)), hist, results, k + 1, key);
      } else if v.Decrypted? && v.msgType == Some(0) {
        var m' := messages[key := messages[key].(protocol := true)];
        assert forall i :: k + 1 <= i < |hist| ==> hist[i].k != key;
        OthersUntouched(m', nd, hist, results, k + 1, key);
      } else {
        assert forall i :: k + 1 <= i < |hist| ==> hist[i].k != key;
        OthersUntouched(messages, nd, hist, results, k + 1, key);
      }
    } else {
      assert hist[j].k != key;
      if HasPayload(v) {
        BatchClassifies(messages[key := messages[key].(textContents := v.payload)], Delete(nd, Decimal(k)), hist, results, k + 1, j);
      } else if v.Decrypted? && v.msgType == Some(0) {
        BatchClassifies(messages[key := messages[key].(protocol := true)], nd, hist, results, k + 1, j);
      } else {
        BatchClassifies(messages, nd, hist, results, k + 1, j);
      }
    }
  }

  /** Replaying the same batch on its own outcome changes nothing: texts are
      written again with the same payloads, protocol flags stay set, and the
      index properties are already gone. */
  lemma {:induction false} BatchIdempotent(messages: map<string, Message>, nd: seq<Slot>, hist: seq<Entry>, results: seq<DecryptResult>, k: nat)
    requires HistKeysDistinct(hist)
    ensures var r := ApplyResults(messages, nd, hist, results, k);
      ApplyResults(r.messages, r.nd, hist, results, k) == r
    decreases |results| - k
  {
    var r := ApplyResults(messages, nd, hist, results, k);
    if k < |results| {
      var v := results[k];
      if k >= |hist| || hist[k].k !in messages {
        BatchIdempotent(messages, nd, hist, results, k + 1);
      } else {
        var key := hist[k].k;
        assert forall i :: k + 1 <= i < |hist| ==> hist[i].k != key;
        if HasPayload(v) {
          var m' := messages[key := messages[key].(textContents := v.payload)];
          var n' := Delete(nd, Decimal(k));
          BatchIdempotent(m', n', hist, results, k + 1);
          OthersUntouched(m', n', hist, results, k + 1, key);
          assert r.messages[key := r.messages[key].(textContents := v.payload)] == r.messages;
          assert Decimal(k) !in KeySet(r.nd);
          assert Delete(r.nd, Decimal(k)) == r.nd;
        } else if v.Decrypted? && v.msgType == Some(0) {
          var m' := messages[key := messages[key].(protocol := true)];
          BatchIdempotent(m', nd, hist, results, k + 1);
          OthersUntouched(m', nd, hist, results, k + 1, key);
          assert r.messages[key := r.messages[key].(protocol := true)] == r.messages;
        } else {
          BatchIdempotent(messages, nd, hist, results, k + 1);
        }
      }
    }
  }

  /** The index-keyed delete misses: a message whose key is not an array
      index gets its text from the batch and yet keeps its
      `notDecryptedBuffer` entry. While the message stays buffered this
      changes nothing, since `Gather` re-enters every buffered message with a
      sender anyway; see `StaleEntryAborts` for when it matters. */
  lemma DecryptedEntryLingers(messages: map<string, Message>, nd: seq<Slot>, results: seq<DecryptResult>, j: nat)
    requires DistinctKeys(nd) && Tagged(nd)
    requires j < |results| && HasPayload(results[j])
    requires |results| <= |nd| && forall i :: 0 <= i < |nd| ==> nd[i].key in messages
    requires !AllDigits(nd[j].key)
    ensures ApplyResults(messages, nd, Hist(nd), results, 0).messages[nd[j].key].textContents == results[j].payload
    ensures nd[j] in ApplyResults(messages, nd, Hist(nd), results, 0).nd
  {
    TaggedHistIsDistinct(nd);
    CoveredBatchCompletes(messages, nd, Hist(nd), results, 0);
    BatchClassifies(messages, nd, Hist(nd), results, 0, j);
    assert nd[j] in nd;
  }

  /** A lingering entry whose message has left the buffer: a text result at
      its index makes the write throw, so the batch ends there or earlier. */
  lemma {:induction false} StaleEntryAborts(messages: map<string, Message>, nd: seq<Slot>, hist: seq<Entry>, results: seq<DecryptResult>, k: nat, j: nat)
    requires k <= j < |results| && j < |hist|
    requires hist[j].k !in messages && HasPayload(results[j])
    ensures ApplyResults(messages, nd, hist, results, k).aborted
    decreases j - k
  {
    if k < j && k < |hist| && hist[k].k in messages {
      var v := results[k];
      var key := hist[k].k;
      if HasPayload(v) {
        var m' := messages[key := messages[key].(textContents := v.payload)];
        assert m'.Keys == messages.Keys;
        StaleEntryAborts(m', Delete(nd, Decimal(k)), hist, results, k + 1, j);
      } else if v.Decrypted? && v.msgType == Some(0) {
        var m' := messages[key := messages[key].(protocol := true)];
        assert m'.Keys == messages.Keys;
        StaleEntryAborts(m', nd, hist, results, k + 1, j);
      } else {
        StaleEntryAborts(messages, nd, hist, results, k + 1, j);
      }
    } else if k < j && !HasPayload(results[k]) && !(results[k].Decrypted? && results[k].msgType == Some(0)) {
      StaleEntryAborts(messages, nd, hist, results, k + 1, j);
    }
  }

  /** Whether the decryption runs: at once with a protocol handler, after
      the strongvelope setup resolves, or never (setup failed or absent). */
  datatype HandlerState = Ready | AfterSetup | SetupFails | NoSetup

  /** `seed` returns a boolean or throws; `batchDecrypt` returns results or
      throws. */
  datatype Seed = SeedTrue | SeedFalse | SeedThrew
  datatype BatchDecrypt = Results(rs: seq<DecryptResult>) | BatchThrew

  datatype HistoryOutcome = HistoryOutcome(messages: map<string, Message>, nd: seq<Slot>, decryptRan: bool, nextPage: bool)

  /** `onHistoryFinished`: gather, then (if there is anything and a handler)
      seed, batch-decrypt, classify and decide whether to fetch more. */
  function OnHistoryFinished(order: seq<string>, messages: map<string, Message>, nd: seq<Slot>,
                             handler: HandlerState, seed: Seed, batch: BatchDecrypt, moreHistory: bool): (r: HistoryOutcome)
    requires forall i :: 0 <= i < |order| ==> order[i] in messages
    ensures r.messages.Keys == messages.Keys
    ensures r.decryptRan <==> |Gather(order, messages, nd)| > 0 && (handler == Ready || handler == AfterSetup)
    ensures r.nextPage <==> r.decryptRan && seed == SeedFalse && moreHistory
    ensures !r.decryptRan || seed == SeedThrew || batch == BatchThrew ==>
      r.messages == messages && r.nd == Gather(order, messages, nd)
  {
    var nd1 := Gather(order, messages, nd);
    var hist := Hist(nd1);
    assert |hist| == |nd1|;
    if !(|hist| > 0 && (handler == Ready || handler == AfterSetup)) then
      HistoryOutcome(messages, nd1, false, false)
    else
      var applied :=
        if seed == SeedThrew then Batch(messages, nd1, true)
        else match batch
          case BatchThrew => Batch(messages, nd1, true)
          case Results(rs) => ApplyResults(messages, nd1, hist, rs, 0);
      // the check after the try block sees `undefined` when `seed` threw
      HistoryOutcome(applied.messages, applied.nd, true, seed == SeedFalse && moreHistory)
  }

  /** Both paths treat one result the same way: the live path's own
      conditions select the same class as the history loop's. */
  lemma LiveAndHistoryAgree(m: Message, key: string, message: string, v: DecryptResult, e: Entry, nd: seq<Slot>)
    requires Truthy(message) && e.k == key
    ensures OnNewMessageReceived(map[key := m], key, message, Returned(v)).messages ==
      ApplyResults(map[key := m], nd, [e], [v], 0).messages
  {
  }
}

=== FILE: guards.dfy ===
/** The two gate decorators, `_waitUntilChatIdIsAvailable` and
    `_waitForShardToBeAvailable`, and the load-time loops that wrap the
    chatd commands with them. Polling and deadlines are abstracted: a poll
    either sees its condition before the deadline or it does not. */
module Guards {
  import opened Js
  import opened ChatIdResolver

  datatype Gate = ChatIdGate | ShardGate

  /** Commands wrapped by the shard gate (first loop). */
  const ShardGated: seq<string> := [
    "retrieveHistory", "markMessageAsSeen", "markMessageAsReceived",
    "setRetention", "sendMessage", "updateMessage"
  ]

  /** Commands wrapped by the chat-id gate (second loop). */
  const ChatIdGated: seq<string> := [
    "join", "retrieveHistory", "markMessageAsSeen", "markMessageAsReceived",
    "setRetention", "sendMessage", "updateMessage"
  ]

  /** The decoration loops in the order they run. */
  const Passes: seq<(Gate, seq<string>)> := [(ShardGate, ShardGated), (ChatIdGate, ChatIdGated)]

  /** The passes that list `name`. */
  function Listing(passes: seq<(Gate, seq<string>)>, name: string): set<nat> {
    set k: nat | k < |passes| && name in passes[k].1
  }

  lemma ListingSnoc(passes: seq<(Gate, seq<string>)>, name: string)
    requires |passes| > 0
    ensures var n := |passes| - 1;
      |Listing(passes, name)| == |Listing(passes[..n], name)| + (if name in passes[n].1 then 1 else 0)
  {
    var n := |passes| - 1;
    var prefix := Listing(passes[..n], name);
    if name in passes[n].1 {
      assert Listing(passes, name) == prefix + {n};
      assert n !in prefix;
    } else {
      assert Listing(passes, name) == prefix;
    }
  }

  /** The gates in front of `name` once `passes` have run, outermost first:
      each pass wraps what earlier passes produced. */
  function Decorate(passes: seq<(Gate, seq<string>)>, name: string): (r: seq<Gate>)
    ensures |r| == |Listing(passes, name)| <= |passes|
    ensures forall g :: g in r ==> exists k :: 0 <= k < |passes| && passes[k].0 == g && name in passes[k].1
    ensures forall k :: 0 <= k < |passes| && name in passes[k].1 ==> passes[k].0 in r
    ensures |passes| > 0 && name in passes[|passes| - 1].1 ==> r[0] == passes[|passes| - 1].0
    decreases |passes|
  {
    if |passes| == 0 then
      assert Listing(passes, name) == {};
      []
    else
      ListingSnoc(passes, name);
      var inner := Decorate(passes[..|passes| - 1], name);
      var last := passes[|passes| - 1];
      if name in last.1 then [last.0] + inner else inner
  }

  /** How a promise the gates wait on ends. */
  datatype Settlement = Resolved | Rejected | NeverSettles

  /** What the gates observe. `mcf` is the startup `mcf` request;
      `retrieval` the promise of `_retrieveChatdIdIfRequired`;
      `chatIdAfterRetrieval` whether the room has a chat id when it
      resolves, else `chatIdBeforeDeadline` whether polling (100 ms, 30 s)
      sees one; `shardKnown` whether chatd already has the shard, else
      `shardBeforeDeadline` whether polling (100 ms, 10 s) sees it. */
  datatype GateEnv = GateEnv(
    mcf: Settlement,
    retrieval: Settlement,
    chatIdAfterRetrieval: bool,
    chatIdBeforeDeadline: bool,
    shardKnown: bool,
    shardBeforeDeadline: bool
  )

  datatype Failure = McfFailed | RetrievalFailed | ChatIdTimeout | ShardTimeout

  datatype GateResult = Pass | Fail(why: Failure) | Wait

  /** `_waitUntilChatIdIsAvailable`: passes exactly when the chat id turns
      up once `mcf` and the retrieval resolve; waits forever on a promise
      that never settles; a rejected promise fails with its own reason. */
  function ChatIdGateResult(env: GateEnv): (r: GateResult)
    ensures r == Pass <==> ChatIdEventuallyKnown(env)
    ensures r == Wait <==> env.mcf == NeverSettles || (env.mcf == Resolved && env.retrieval == NeverSettles)
    ensures r == Fail(McfFailed) <==> env.mcf == Rejected
    ensures r == Fail(RetrievalFailed) <==> env.mcf == Resolved && env.retrieval == Rejected
  {
    match env.mcf
    case NeverSettles => Wait
    case Rejected => Fail(McfFailed)
    case Resolved =>
      match env.retrieval
      case NeverSettles => Wait
      case Rejected => Fail(RetrievalFailed)
      case Resolved =>
        if env.chatIdAfterRetrieval || env.chatIdBeforeDeadline then Pass else Fail(ChatIdTimeout)
  }

  /** `_waitForShardToBeAvailable`: passes exactly when chatd knows the
      shard in time, and otherwise fails; it never waits forever. */
  function ShardGateResult(env: GateEnv): (r: GateResult)
    ensures r == Pass <==> ShardEventuallyKnown(env)
    ensures r == Fail(ShardTimeout) <==> !ShardEventuallyKnown(env)
  {
    if env.shardKnown || env.shardBeforeDeadline then Pass else Fail(ShardTimeout)
  }

  /** One gate: it lets the call through exactly when what it waits for is
      eventually there; only the chat-id gate can wait forever. */
  function PassGate(g: Gate, env: GateEnv): (r: GateResult)
    ensures r == Pass <==>
      (g == ChatIdGate ==> ChatIdEventuallyKnown(env)) && (g == ShardGate ==> ShardEventuallyKnown(env))
    ensures r == Wait ==> g == ChatIdGate
  {
    match g
    case ChatIdGate => ChatIdGateResult(env)
    case ShardGate => ShardGateResult(env)
  }

  /** What a call through its gates comes to: the wrapped command runs, the
      returned promise rejects without running it, or it stays pending. */
  datatype Invocation = Ran | Refused(why: Failure) | Hung

  function RunGates(gates: seq<Gate>, env: GateEnv): Invocation
    decreases |gates|
  {
    if |gates| == 0 then Ran
    else match PassGate(gates[0], env)
      case Pass => RunGates(gates[1..], env)
      case Fail(why) => Refused(why)
      case Wait => Hung
  }

  /** The decorated chatd commands. */
  datatype Call =
    | JoinCmd
    | RetrieveHistoryCmd(count: int)
    | MarkMessageAsSeenCmd(msgId: string)
    | MarkMessageAsReceivedCmd(msgId: string)
    | SetRetentionCmd(time: int)
    | SendMessageCmd(message: string)
    | UpdateMessageCmd(num: int, message: string)

  function Name(c: Call): string {
    match c
    case JoinCmd => "join"
    case RetrieveHistoryCmd(_) => "retrieveHistory"
    case MarkMessageAsSeenCmd(_) => "markMessageAsSeen"
    case MarkMessageAsReceivedCmd(_) => "markMessageAsReceived"
    case SetRetentionCmd(_) => "setRetention"
    case SendMessageCmd(_) => "sendMessage"
    case UpdateMessageCmd(_, _) => "updateMessage"
  }

  function Invoke(c: Call, env: GateEnv): Invocation {
    RunGates(Decorate(Passes, Name(c)), env)
  }

  /** The chat id is there once `mcf` and the retrieval have resolved. */
  predicate ChatIdEventuallyKnown(env: GateEnv) {
    env.mcf == Resolved && env.retrieval == Resolved && (env.chatIdAfterRetrieval || env.chatIdBeforeDeadline)
  }

  /** chatd knows the room's shard, now or within the deadline. */
  predicate ShardEventuallyKnown(env: GateEnv) {
    env.shardKnown || env.shardBeforeDeadline
  }

  /** The chat-id gate is outermost on every command; the shard gate sits
      inside it on all of them but `join`. */
  lemma DecorationOrder(c: Call)
    ensures Decorate(Passes, Name(c)) == if c.JoinCmd? then [ChatIdGate] else [ChatIdGate, ShardGate]
  {
    var n := Name(c);
    assert Passes[..1] == [(ShardGate, ShardGated)];
    assert Passes[..1][..0] == [];
    if c.JoinCmd? {
      assert n !in ShardGated;
    } else {
      assert n in ShardGated;
    }
  }

  /** Passing one gate hands over to what it wraps. */
  function Then(g: GateResult, inner: Invocation): Invocation {
    match g
    case Pass => inner
    case Fail(why) => Refused(why)
    case Wait => Hung
  }

  lemma InvokeUnfolds(c: Call, env: GateEnv)
    ensures Invoke(c, env) ==
      Then(PassGate(ChatIdGate, env), if c.JoinCmd? then Ran else Then(PassGate(ShardGate, env), Ran))
  {
    DecorationOrder(c);
    var gs := Decorate(Passes, Name(c));
    if c.JoinCmd? {
      assert gs[1..] == [];
      assert RunGates(gs, env) == Then(PassGate(ChatIdGate, env), RunGates(gs[1..], env));
    } else {
      assert gs[1..] == [ShardGate];
      assert gs[1..][1..] == [];
      assert RunGates(gs[1..], env) == Then(PassGate(ShardGate, env), RunGates(gs[1..][1..], env));
      assert RunGates(gs, env) == Then(PassGate(ChatIdGate, env), RunGates(gs[1..], env));
    }
  }

  /** A wrapped command runs exactly when the chat id becomes known and,
      except for `join`, chatd then knows the shard. */
  lemma RunsOnlyWhenReady(c: Call, env: GateEnv)
    ensures Invoke(c, env) == Ran <==> ChatIdEventuallyKnown(env) && (c.JoinCmd? || ShardEventuallyKnown(env))
  {
    InvokeUnfolds(c, env);
  }

  /** The outer gate decides first: a chat-id failure rejects with its own
      reason and a hanging chat-id gate hangs, whatever the shard does; a
      shard timeout is reported only once the chat id is known. */
  lemma OuterGateFirst(c: Call, env: GateEnv)
    ensures PassGate(ChatIdGate, env).Fail? ==> Invoke(c, env) == Refused(PassGate(ChatIdGate, env).why)
    ensures PassGate(ChatIdGate, env).Wait? ==> Invoke(c, env) == Hung
    ensures Invoke(c, env) == Refused(ShardTimeout) <==>
      ChatIdEventuallyKnown(env) && !c.JoinCmd? && !ShardEventuallyKnown(env)
    ensures Invoke(c, env) != Refused(ShardTimeout) ==> (Invoke(c, env).Refused? ==> !ChatIdEventuallyKnown(env))
  {
    InvokeUnfolds(c, env);
  }

  /** How `_retrieveChatdIdIfRequired` ends for a lookup outcome, given the
      response to the request it follows (`None` when the request fails),
      and whether the room then has a chat id. */
  function RetrievalSettles(lookup: Lookup, resp: Option<McResponse>): (r: (Settlement, bool))
    ensures r.0 == NeverSettles <==> lookup == NoKnownParticipants
    ensures r.0 == Rejected <==> (lookup.JoinedPending? || lookup.Issued?) && resp.None?
    ensures r.1 <==> lookup == AlreadyKnown || ((lookup.JoinedPending? || lookup.Issued?) && resp.Some? && Truthy(resp.value.id))
    ensures r.1 ==> r.0 == Resolved
  {
    match lookup
    case AlreadyKnown => (Resolved, true)
    case NoKnownParticipants => (NeverSettles, false)
    case _ =>
      match resp
      case None => (Rejected, false)
      case Some(answer) => (Resolved, Truthy(answer.id))
  }

  /** A room none of whose other participants is a known contact never gets
      a request, and every gated command on it stays pending forever. */
  lemma UnknownParticipantsHang(st: Resolver, roomJid: string, resp: Option<McResponse>, c: Call, env: GateEnv)
    requires roomJid in st.reg.chats
    requires !Truthy(st.reg.chats[roomJid].chatId) && roomJid !in st.pending
    requires KnownContacts(ParticipantsExceptMe(st.reg.chats[roomJid], st.meJid), st.contacts) == []
    requires env.mcf == Resolved
    requires env.retrieval == RetrievalSettles(Retrieve(st, roomJid).1, resp).0
    ensures Retrieve(st, roomJid).0 == st
    ensures Invoke(c, env) == Hung
  {
    assert Retrieve(st, roomJid).1 == NoKnownParticipants;
    assert env.retrieval == NeverSettles;
    InvokeUnfolds(c, env);
  }

  /** A room with a chat id passes the chat-id gate at once, without a request. */
  lemma KnownChatIdPasses(st: Resolver, roomJid: string, resp: Option<McResponse>, env: GateEnv)
    requires roomJid in st.reg.chats && Truthy(st.reg.chats[roomJid].chatId)
    requires env.mcf == Resolved
    requires (env.retrieval, env.chatIdAfterRetrieval) == RetrievalSettles(Retrieve(st, roomJid).1, resp)
    ensures Retrieve(st, roomJid).0 == st
    ensures Invoke(JoinCmd, env) == Ran
  {
    assert Retrieve(st, roomJid).1 == AlreadyKnown;
    InvokeUnfolds(JoinCmd, env);
  }
}

=== FILE: js.dfy ===
/** JavaScript value semantics the integration layer relies on: optional
    values, thrown-or-returned results, string truthiness, `removeValue`,
    the `<` order on strings and the property key of an array index. */
module Js {

  /** `undefined` versus a present value. */
  datatype Option<+T> = None | Some(value: T)

  /** A call that either returns a value or throws. */
  datatype Result<+T, +E> = Ok(value: T) | Err(error: E)

  /** Truthiness of a string: only the empty string is falsy. */
  predicate Truthy(s: string) {
    |s| > 0
  }

  /** `removeValue(array, value)`, whose definition is not part of this
      model: assumed to drop the first occurrence of `value` and to leave
      an array without it as it is. */
  function RemoveValue<T(==)>(xs: seq<T>, v: T): (r: seq<T>)
    ensures v !in xs ==> r == xs
    ensures v in xs ==> |r| == |xs| - 1
    ensures multiset(r) == multiset(xs) - multiset{v}
  {
    if |xs| == 0 then []
    else if xs[0] == v then
      assert xs == [xs[0]] + xs[1..];
      xs[1..]
    else
      assert xs == [xs[0]] + xs[1..];
      [xs[0]] + RemoveValue(xs[1..], v)
  }

  /** `array.map(f)`. */
  function Map<A, B>(xs: seq<A>, f: A -> B): (r: seq<B>)
    ensures |r| == |xs|
    ensures forall i :: 0 <= i < |xs| ==> r[i] == f(xs[i])
  {
    seq(|xs|, i requires 0 <= i < |xs| => f(xs[i]))
  }

  /** `a < b` on two strings: character by character, where a proper
      prefix is below the longer string. Dafny characters are Unicode
      scalar values while JavaScript compares UTF-16 code units; the two
      orders agree on the ASCII handles and ids compared here. */
  predicate Below(a: string, b: string)
    decreases |a|
  {
    |b| > 0 && (|a| == 0 || a[0] < b[0] || (a[0] == b[0] && Below(a[1..], b[1..])))
  }

  lemma {:induction false} BelowIrreflexive(a: string)
    ensures !Below(a, a)
    decreases |a|
  {
    if |a| > 0 {
      BelowIrreflexive(a[1..]);
    }
  }

  lemma {:induction false} BelowAsymmetric(a: string, b: string)
    requires Below(a, b)
    ensures !Below(b, a)
    decreases |a|
  {
    if |a| > 0 && a[0] == b[0] {
      BelowAsymmetric(a[1..], b[1..]);
    }
  }

  lemma {:induction false} BelowTransitive(a: string, b: string, c: string)
    requires Below(a, b) && Below(b, c)
    ensures Below(a, c)
    decreases |a|
  {
    if |a| > 0 && a[0] == b[0] && b[0] == c[0] {
      BelowTransitive(a[1..], b[1..], c[1..]);
    }
  }

  /** Two distinct strings are always ordered one way or the other. */
  lemma {:induction false} BelowTotal(a: string, b: string)
    requires a != b
    ensures Below(a, b) || Below(b, a)
    decreases |a|
  {
    if |a| > 0 && |b| > 0 && a[0] == b[0] {
      assert a == [a[0]] + a[1..];
      assert b == [b[0]] + b[1..];
      BelowTotal(a[1..], b[1..]);
    }
  }

  predicate IsDigit(c: char) {
    '0' <= c <= '9'
  }

  /** A string of decimal digits only. */
  predicate AllDigits(s: string) {
    forall i :: 0 <= i < |s| ==> IsDigit(s[i])
  }

  function DigitChar(d: nat): (c: char)
    requires d < 10
    ensures IsDigit(c)
  {
    ['0', '1', '2', '3', '4', '5', '6', '7', '8', '9'][d]
  }

  /** The number a digit string reads as, most significant digit first. */
  function DigitsValue(s: string): nat
    requires AllDigits(s)
    decreases |s|
  {
    if |s| == 0 then 0
    else DigitsValue(s[..|s| - 1]) * 10 + (s[|s| - 1] as int - '0' as int)
  }

  /** The property key an array index `n` becomes when it is used to index
      a plain object: its decimal spelling, which reads back as `n`. */
  function Decimal(n: nat): (r: string)
    ensures Truthy(r) && AllDigits(r)
    ensures DigitsValue(r) == n
  {
    if n < 10 then
      var r := [DigitChar(n)];
      assert r[..0] == [];
      r
    else
      var p := Decimal(n / 10);
      var r := p + [DigitChar(n % 10)];
      assert r[..|r| - 1] == p;
      r
  }

  /** A digit string that does not start with `0` reads as a positive number. */
  lemma {:induction false} LeadingDigitIsPositive(s: string)
    requires AllDigits(s) && |s| > 0 && s[0] != '0'
    ensures DigitsValue(s) > 0
    decreases |s|
  {
    if |s| > 1 {
      LeadingDigitIsPositive(s[..|s| - 1]);
    }
  }

  /** The spelling has no leading zero: only `0` itself starts with `0`. */
  lemma {:induction false} DecimalHasNoLeadingZero(n: nat)
    ensures Decimal(n)[0] == '0' <==> n == 0
    ensures n == 0 ==> Decimal(n) == "0"
    decreases n
  {
    if n >= 10 {
      DecimalHasNoLeadingZero(n / 10);
      assert Decimal(n)[0] == Decimal(n / 10)[0];
    }
  }

  /** `Decimal` is the only spelling without leading zeros, so it is the
      key `String(n)` gives. */
  lemma {:induction false} CanonicalDigitsAreDecimal(s: string)
    requires AllDigits(s) && |s| > 0 && (|s| == 1 || s[0] != '0')
    ensures s == Decimal(DigitsValue(s))
    decreases |s|
  {
    var n := DigitsValue(s);
    var c := s[|s| - 1];
    var d := c as int - '0' as int;
    assert DigitChar(d) == c;
    if |s| > 1 {
      var p := s[..|s| - 1];
      LeadingDigitIsPositive(p);
      CanonicalDigitsAreDecimal(p);
      assert n / 10 == DigitsValue(p) && n % 10 == d;
      assert s == p + [c];
    }
  }

  /** Different indices give different property keys. */
  lemma DecimalInjective(a: nat, b: nat)
    requires Decimal(a) == Decimal(b)
    ensures a == b
  {
  }
}

=== FILE: membership.dfy ===
/** The `onMembersUpdated` handler each attached room installs: chatd
    membership events first deliver the initial snapshot (add-only, until
    the event for the user's own handle arrives) and then deltas
    (remove-only, privilege 255). */
module Membership {
  import opened Js
  import opened Chat

  /** The privilege chatd reports for a user who left the room. */
  const RemovedPriv: int := 255

  datatype MembersUpdate = MembersUpdate(chatId: string, userId: string, priv: int)

  /** The event resolves, through the registry, to this very room. */
  predicate Addressed(reg: Registry, room: Room, ev: MembersUpdate) {
    var found := FindRoom(reg, ev.chatId);
    found.Ok? && found.value.roomJid == room.roomJid
  }

  /** One handler invocation for `room`, where `me` is the user's own handle.
      Events routed elsewhere, and events whose lookup throws, leave the
      room as it is. */
  function OnMembersUpdated(reg: Registry, me: string, room: Room, ev: MembersUpdate): (r: Room)
    ensures r.(members := room.members, membersLoaded := room.membersLoaded) == room
    ensures !Addressed(reg, room, ev) ==> r == room
    ensures room.membersLoaded ==> r.membersLoaded
    // snapshot phase: appends only, and the own handle completes the snapshot
    ensures !room.membersLoaded ==>
      r.members == room.members + (if Addressed(reg, room, ev) && ev.priv < RemovedPriv then [ev.userId] else [])
    ensures !room.membersLoaded ==> (r.membersLoaded <==> Addressed(reg, room, ev) && ev.userId == me)
    // delta phase: only a privilege-255 event changes the members, by removing that user
    ensures room.membersLoaded ==>
      multiset(r.members) == multiset(room.members)
        - (if Addressed(reg, room, ev) && ev.priv == RemovedPriv then multiset{ev.userId} else multiset{})
    ensures room.membersLoaded && !(Addressed(reg, room, ev) && ev.priv == RemovedPriv) ==> r == room
  {
    var found := FindRoom(reg, ev.chatId);
    if found.Err? then room
    else if found.value.roomJid != room.roomJid then room
    else if !room.membersLoaded then
      var members := if ev.priv < RemovedPriv then room.members + [ev.userId] else room.members;
      room.(members := members, membersLoaded := ev.userId == me)
    else if ev.priv == RemovedPriv then
      room.(members := RemoveValue(room.members, ev.userId))
    else room
  }

  /** The handler applied to events in arrival order. */
  function ApplyUpdates(reg: Registry, me: string, room: Room, evs: seq<MembersUpdate>): Room
    decreases |evs|
  {
    if |evs| == 0 then room
    else ApplyUpdates(reg, me, OnMembersUpdated(reg, me, room, evs[0]), evs[1..])
  }

  /** Users a snapshot-phase event sequence adds, in order. */
  function Snapshot(reg: Registry, room: Room, evs: seq<MembersUpdate>): seq<string>
    decreases |evs|
  {
    if |evs| == 0 then []
    else
      var added := if Addressed(reg, room, evs[0]) && evs[0].priv < RemovedPriv then [evs[0].userId] else [];
      added + Snapshot(reg, room, evs[1..])
  }

  /** Users a delta-phase event sequence asks to remove. */
  function Removals(reg: Registry, room: Room, evs: seq<MembersUpdate>): multiset<string>
    decreases |evs|
  {
    if |evs| == 0 then multiset{}
    else
      var removed := if Addressed(reg, room, evs[0]) && evs[0].priv == RemovedPriv then multiset{evs[0].userId} else multiset{};
      removed + Removals(reg, room, evs[1..])
  }

  /** The handler never touches anything but the two membership fields,
      so routing is the same before and after any number of events. */
  lemma {:induction false} ApplyKeepsRoom(reg: Registry, me: string, room: Room, evs: seq<MembersUpdate>)
    ensures ApplyUpdates(reg, me, room, evs).(members := room.members, membersLoaded := room.membersLoaded) == room
    decreases |evs|
  {
    if |evs| > 0 {
      ApplyKeepsRoom(reg, me, OnMembersUpdated(reg, me, room, evs[0]), evs[1..]);
    }
  }

  /** Folding over a concatenation is folding over each part in turn. */
  lemma {:induction false} ApplyAppend(reg: Registry, me: string, room: Room, a: seq<MembersUpdate>, b: seq<MembersUpdate>)
    ensures ApplyUpdates(reg, me, room, a + b) == ApplyUpdates(reg, me, ApplyUpdates(reg, me, room, a), b)
    decreases |a|
  {
    if |a| > 0 {
      assert (a + b)[1..] == a[1..] + b;
      ApplyAppend(reg, me, OnMembersUpdated(reg, me, room, a[0]), a[1..], b);
    } else {
      assert a + b == b;
    }
  }

  /** Once loaded, a room stays loaded whatever events follow. */
  lemma {:induction false} LoadedIsSticky(reg: Registry, me: string, room: Room, evs: seq<MembersUpdate>)
    requires room.membersLoaded
    ensures ApplyUpdates(reg, me, room, evs).membersLoaded
    decreases |evs|
  {
    if |evs| > 0 {
      LoadedIsSticky(reg, me, OnMembersUpdated(reg, me, room, evs[0]), evs[1..]);
    }
  }

  /** Before the own-handle event arrives, events only append: the members
      become the old members followed by the snapshot, and none is removed. */
  lemma {:induction false} SnapshotIsAddOnly(reg: Registry, me: string, room: Room, evs: seq<MembersUpdate>)
    requires !room.membersLoaded
    requires forall i :: 0 <= i < |evs| ==> !(Addressed(reg, room, evs[i]) && evs[i].userId == me)
    ensures !ApplyUpdates(reg, me, room, evs).membersLoaded
    ensures ApplyUpdates(reg, me, room, evs).members == room.members + Snapshot(reg, room, evs)
    decreases |evs|
  {
    if |evs| > 0 {
      var next := OnMembersUpdated(reg, me, room, evs[0]);
      assert !(Addressed(reg, room, evs[0]) && evs[0].userId == me);
      assert next.roomJid == room.roomJid;
      assert forall i :: 0 <= i < |evs[1..]| ==> evs[1..][i] == evs[i + 1];
      SnapshotIsAddOnly(reg, me, next, evs[1..]);
      assert Snapshot(reg, next, evs[1..]) == Snapshot(reg, room, evs[1..]) by {
        SnapshotDependsOnJid(reg, next, room, evs[1..]);
      }
    }
  }

  lemma {:induction false} SnapshotDependsOnJid(reg: Registry, a: Room, b: Room, evs: seq<MembersUpdate>)
    requires a.roomJid == b.roomJid
    ensures Snapshot(reg, a, evs) == Snapshot(reg, b, evs)
    ensures Removals(reg, a, evs) == Removals(reg, b, evs)
    decreases |evs|
  {
    if |evs| > 0 {
      SnapshotDependsOnJid(reg, a, b, evs[1..]);
    }
  }

  /** After loading, events only remove: no user gains an entry, and each
      loses exactly one per removal addressed to the room, down to none. */
  lemma {:induction false} DeltasAreRemoveOnly(reg: Registry, me: string, room: Room, evs: seq<MembersUpdate>)
    requires room.membersLoaded
    ensures multiset(ApplyUpdates(reg, me, room, evs).members) <= multiset(room.members)
    ensures multiset(ApplyUpdates(reg, me, room, evs).members) == multiset(room.members) - Removals(reg, room, evs)
    decreases |evs|
  {
    if |evs| > 0 {
      var next := OnMembersUpdated(reg, me, room, evs[0]);
      DeltasAreRemoveOnly(reg, me, next, evs[1..]);
      SnapshotDependsOnJid(reg, next, room, evs[1..]);
      var first := if Addressed(reg, room, evs[0]) && evs[0].priv == RemovedPriv then multiset{evs[0].userId} else multiset{};
      assert multiset(next.members) == multiset(room.members) - first;
      assert Removals(reg, room, evs) == first + Removals(reg, room, evs[1..]);
    }
  }

  /** The two phases together: the events up to and including the own-handle
      event build the snapshot, and everything after can only shrink it. */
  lemma TwoPhases(reg: Registry, me: string, room: Room, pre: seq<MembersUpdate>, own: MembersUpdate, post: seq<MembersUpdate>)
    requires !room.membersLoaded
    requires forall i :: 0 <= i < |pre| ==> !(Addressed(reg, room, pre[i]) && pre[i].userId == me)
    requires Addressed(reg, room, own) && own.userId == me
    ensures var r := ApplyUpdates(reg, me, room, pre + [own] + post);
      && r.membersLoaded
      && multiset(r.members) <= multiset(room.members + Snapshot(reg, room, pre + [own]))
  {
    SnapshotIsAddOnly(reg, me, room, pre);
    var mid := ApplyUpdates(reg, me, room, pre);
    ApplyKeepsRoom(reg, me, room, pre);
    ApplyAppend(reg, me, room, pre, [own]);
    ApplyAppend(reg, me, room, pre + [own], post);
    var loaded := OnMembersUpdated(reg, me, mid, own);
    assert ApplyUpdates(reg, me, mid, [own]) == loaded;
    assert Addressed(reg, mid, own);
    assert loaded.membersLoaded;
    DeltasAreRemoveOnly(reg, me, loaded, post);
    LoadedIsSticky(reg, me, loaded, post);
    SnapshotAppend(reg, room, pre, own);
  }

  lemma {:induction false} SnapshotAppend(reg: Registry, room: Room, a: seq<MembersUpdate>, e: MembersUpdate)
    ensures Snapshot(reg, room, a + [e]) ==
      Snapshot(reg, room, a) + (if Addressed(reg, room, e) && e.priv < RemovedPriv then [e.userId] else [])
    decreases |a|
  {
    if |a| > 0 {
      assert (a + [e])[1..] == a[1..] + [e];
      SnapshotAppend(reg, room, a[1..], e);
    } else {
      assert a + [e] == [e];
    }
  }
}

=== FILE: resolver.dfy ===
/** `_retrieveChatdIdIfRequired`: the single-flight lookup of a room's chat
    id, shard and chatd URL through the `mcc` API request, and the
    `mcc` payload it builds. */
module ChatIdResolver {
  import opened Js
  import opened Chat

  /** The privilege every invited participant is requested with. */
  const InvitePriv: int := 3

  /** One `{u, p}` entry of the `mcc` request. */
  datatype UserHash = UserHash(u: string, p: int)

  /** Ascending by `u` under the string `<` the sort comparator uses. */
  predicate SortedByU(s: seq<UserHash>) {
    forall i, j :: 0 <= i < j < |s| ==> !Below(s[j].u, s[i].u)
  }

  /** The user's own JID is dropped from the participants
      (`getParticipantsExceptMe`, assumed to remove like `removeValue`). */
  function ParticipantsExceptMe(room: Room, meJid: string): seq<string> {
    RemoveValue(room.participants, meJid)
  }

  /** `u` is the contact handle of one of `jids`. */
  predicate ContactIn(jids: seq<string>, contacts: map<string, string>, u: string) {
    exists j :: j in jids && j in contacts && contacts[j] == u
  }

  /** Participants without a known contact are skipped; the others become
      `{u: contact handle, p: 3}`, in participant order. */
  function KnownContacts(jids: seq<string>, contacts: map<string, string>): (r: seq<UserHash>)
    ensures forall h :: h in r ==> h.p == InvitePriv
    ensures forall h :: h in r ==> ContactIn(jids, contacts, h.u)
    ensures forall i :: 0 <= i < |jids| && jids[i] in contacts ==> UserHash(contacts[jids[i]], InvitePriv) in r
    ensures |r| <= |jids|
  {
    if |jids| == 0 then []
    else
      var head := if jids[0] in contacts then [UserHash(contacts[jids[0]], InvitePriv)] else [];
      head + KnownContacts(jids[1..], contacts)
  }

  /** The positions, from `lo` on, of participants whose contact handle
      is `u`. */
  function HandlePositions(jids: seq<string>, contacts: map<string, string>, u: string, lo: nat): set<nat> {
    set i: nat | lo <= i < |jids| && jids[i] in contacts && contacts[jids[i]] == u
  }

  lemma {:induction false} KnownContactsCountFrom(jids: seq<string>, contacts: map<string, string>, h: UserHash, lo: nat)
    requires lo <= |jids|
    ensures multiset(KnownContacts(jids[lo..], contacts))[h] ==
      if h.p == InvitePriv then |HandlePositions(jids, contacts, h.u, lo)| else 0
    decreases |jids| - lo
  {
    if lo == |jids| {
      assert jids[lo..] == [];
      assert HandlePositions(jids, contacts, h.u, lo) == {};
    } else {
      KnownContactsCountFrom(jids, contacts, h, lo + 1);
      var rest := KnownContacts(jids[lo + 1..], contacts);
      var head := if jids[lo] in contacts then [UserHash(contacts[jids[lo]], InvitePriv)] else [];
      assert jids[lo..][1..] == jids[lo + 1..];
      assert KnownContacts(jids[lo..], contacts) == head + rest;
      assert multiset(head + rest)[h] == multiset(head)[h] + multiset(rest)[h];
      HandlePositionsCons(jids, contacts, h.u, lo);
    }
  }

  lemma HandlePositionsCons(jids: seq<string>, contacts: map<string, string>, u: string, lo: nat)
    requires lo < |jids|
    ensures |HandlePositions(jids, contacts, u, lo)| ==
      (if jids[lo] in contacts && contacts[jids[lo]] == u then 1 else 0) + |HandlePositions(jids, contacts, u, lo + 1)|
  {
    var rest := HandlePositions(jids, contacts, u, lo + 1);
    if jids[lo] in contacts && contacts[jids[lo]] == u {
      assert HandlePositions(jids, contacts, u, lo) == {lo} + rest;
      assert lo !in rest;
    } else {
      assert HandlePositions(jids, contacts, u, lo) == rest;
    }
  }

  /** Each entry occurs once per participant whose contact it is: no entry
      is lost, merged or made up. */
  lemma KnownContactsCount(jids: seq<string>, contacts: map<string, string>, h: UserHash)
    ensures multiset(KnownContacts(jids, contacts))[h] ==
      if h.p == InvitePriv then |HandlePositions(jids, contacts, h.u, 0)| else 0
  {
    KnownContactsCountFrom(jids, contacts, h, 0);
    assert jids[0..] == jids;
  }

  /** In a sorted list, an entry the first one is not below is not below
      any later one either. */
  lemma NotBelowHeadBoundsAll(x: UserHash, s: seq<UserHash>)
    requires SortedByU(s) && |s| > 0 && !Below(s[0].u, x.u)
    ensures forall j :: 0 <= j < |s| ==> !Below(s[j].u, x.u)
  {
    forall j | 0 <= j < |s|
      ensures !Below(s[j].u, x.u)
    {
      if Below(s[j].u, x.u) && s[j].u != s[0].u {
        BelowTotal(s[j].u, s[0].u);
        if Below(s[0].u, s[j].u) {
          BelowTransitive(s[0].u, s[j].u, x.u);
        }
      }
    }
  }

  /** A bound every entry of `s` and `x` respects holds of any list with
      exactly those entries. */
  lemma BoundCarriesOver(rest: seq<UserHash>, s: seq<UserHash>, x: UserHash, b: string)
    requires multiset(rest) == multiset(s) + multiset{x}
    requires forall j :: 0 <= j < |s| ==> !Below(s[j].u, b)
    requires !Below(x.u, b)
    ensures forall k :: 0 <= k < |rest| ==> !Below(rest[k].u, b)
  {
    forall k | 0 <= k < |rest|
      ensures !Below(rest[k].u, b)
    {
      assert rest[k] in multiset(rest);
      if rest[k] != x {
        assert rest[k] in multiset(s);
        var j :| 0 <= j < |s| && s[j] == rest[k];
      }
    }
  }

  /** The tail of a sorted list is sorted, and its head bounds it. */
  lemma SortedTail(s: seq<UserHash>)
    requires SortedByU(s) && |s| > 0
    ensures SortedByU(s[1..])
    ensures forall j :: 0 <= j < |s[1..]| ==> !Below(s[1..][j].u, s[0].u)
  {
    forall j | 0 <= j < |s[1..]|
      ensures !Below(s[1..][j].u, s[0].u)
    {
      assert s[1..][j] == s[j + 1];
    }
  }

  /** Inserting before the first entry that is not below `x`. */
  function Insert(x: UserHash, s: seq<UserHash>): (r: seq<UserHash>)
    requires SortedByU(s)
    ensures SortedByU(r)
    ensures multiset(r) == multiset(s) + multiset{x}
    decreases |s|
  {
    if |s| == 0 then [x]
    else if !Below(s[0].u, x.u) then
      NotBelowHeadBoundsAll(x, s);
      [x] + s
    else
      var tail := s[1..];
      SortedTail(s);
      var rest := Insert(x, tail);
      BelowAsymmetric(s[0].u, x.u);
      BoundCarriesOver(rest, tail, x, s[0].u);
      assert s == [s[0]] + tail;
      [s[0]] + rest
  }

  /** The comparator sort of the `mcc` user list. */
  function SortByU(s: seq<UserHash>): (r: seq<UserHash>)
    ensures SortedByU(r)
    ensures multiset(r) == multiset(s)
    decreases |s|
  {
    if |s| == 0 then []
    else
      assert s == [s[0]] + s[1..];
      Insert(s[0], SortByU(s[1..]))
  }

  /** The user list of the `mcc` request for `room`. */
  function UserHashes(room: Room, meJid: string, contacts: map<string, string>): (r: seq<UserHash>)
    ensures SortedByU(r)
    ensures multiset(r) == multiset(KnownContacts(ParticipantsExceptMe(room, meJid), contacts))
  {
    SortByU(KnownContacts(ParticipantsExceptMe(room, meJid), contacts))
  }

  /** Every entry carries the invitation privilege. */
  predicate Invites(s: seq<UserHash>) {
    forall i :: 0 <= i < |s| ==> s[i].p == InvitePriv
  }

  /** Both lists start with the same entry. */
  lemma SortedHeadsAgree(s: seq<UserHash>, t: seq<UserHash>)
    requires SortedByU(s) && SortedByU(t) && Invites(s) && Invites(t)
    requires multiset(s) == multiset(t) && |s| > 0 && |t| > 0
    ensures s[0] == t[0]
  {
    assert s[0] in multiset(t);
    var j :| 0 <= j < |t| && t[j] == s[0];
    assert t[0] in multiset(s);
    var i :| 0 <= i < |s| && s[i] == t[0];
    if j == 0 { BelowIrreflexive(s[0].u); }
    assert !Below(s[0].u, t[0].u);
    if i == 0 { BelowIrreflexive(t[0].u); }
    assert !Below(t[0].u, s[0].u);
    if s[0].u != t[0].u {
      BelowTotal(s[0].u, t[0].u);
    }
  }

  /** A sorted invitation list is determined by its entries: two sorted
      lists with the same entries are equal. */
  lemma {:induction false} SortedIsUnique(s: seq<UserHash>, t: seq<UserHash>)
    requires SortedByU(s) && SortedByU(t) && Invites(s) && Invites(t)
    requires multiset(s) == multiset(t)
    ensures s == t
    decreases |s|
  {
    assert |t| == |multiset(t)| == |multiset(s)| == |s|;
    if |s| > 0 {
      SortedHeadsAgree(s, t);
      assert s == [s[0]] + s[1..];
      assert t == [t[0]] + t[1..];
      assert multiset(s[1..]) == multiset(s) - multiset{s[0]};
      assert multiset(t[1..]) == multiset(t) - multiset{t[0]};
      SortedIsUnique(s[1..], t[1..]);
    }
  }

  /** Participant lists that yield the same known contacts, in any order,
      yield the same `mcc` user list. */
  lemma PayloadIsCanonical(a: Room, b: Room, meJid: string, contacts: map<string, string>)
    requires multiset(KnownContacts(ParticipantsExceptMe(a, meJid), contacts))
          == multiset(KnownContacts(ParticipantsExceptMe(b, meJid), contacts))
    ensures UserHashes(a, meJid, contacts) == UserHashes(b, meJid, contacts)
  {
    var s: seq<UserHash> := UserHashes(a, meJid, contacts);
    var t: seq<UserHash> := UserHashes(b, meJid, contacts);
    forall i | 0 <= i < |s|
      ensures s[i].p == InvitePriv
    {
      assert s[i] in multiset(s);
    }
    forall i | 0 <= i < |t|
      ensures t[i].p == InvitePriv
    {
      assert t[i] in multiset(t);
    }
    SortedIsUnique(s, t);
  }

  /** The `mcc` request: group flag and user list. */
  datatype Request = Request(id: nat, roomJid: string, g: int, users: seq<UserHash>)

  /** The `mcc` response fields the resolver reads. */
  datatype McResponse = McResponse(url: string, id: string, cs: Option<int>)

  /** `waitingChatIdPromises` with the registry it updates. `sent` and
      `settled` record every request issued and every room whose request
      settled, in order; `joins` records the chatd joins performed. */
  datatype Resolver = Resolver(
    reg: Registry,
    pending: map<string, Request>,
    nextId: nat,
    sent: seq<Request>,
    settled: seq<string>,
    joins: seq<JoinCommand>,
    meJid: string,
    contacts: map<string, string>
  )

  datatype Lookup =
    | AlreadyKnown            // resolves at once
    | JoinedPending(id: nat)  // follows the request already in flight
    | Issued(id: nat)         // follows a fresh `mcc` request
    | NoKnownParticipants     // returns early: the promise never settles

  /** `_retrieveChatdIdIfRequired` for the room at `roomJid`, once `mcf`
      has finished. */
  function Retrieve(st: Resolver, roomJid: string): (r: (Resolver, Lookup))
    requires roomJid in st.reg.chats
    ensures Truthy(st.reg.chats[roomJid].chatId) ==> r == (st, AlreadyKnown)
    ensures roomJid in st.pending && !Truthy(st.reg.chats[roomJid].chatId) ==>
      r == (st, JoinedPending(st.pending[roomJid].id))
    ensures r.1.Issued? <==>
      !Truthy(st.reg.chats[roomJid].chatId) && roomJid !in st.pending
      && |KnownContacts(ParticipantsExceptMe(st.reg.chats[roomJid], st.meJid), st.contacts)| > 0
    ensures r.1 == NoKnownParticipants <==>
      !Truthy(st.reg.chats[roomJid].chatId) && roomJid !in st.pending
      && |KnownContacts(ParticipantsExceptMe(st.reg.chats[roomJid], st.meJid), st.contacts)| == 0
    ensures !r.1.Issued? ==> r.0 == st
    // a lookup touches only the request table and the request log
    ensures r.0.reg == st.reg && r.0.meJid == st.meJid && r.0.contacts == st.contacts
    ensures forall j :: j in st.pending ==> j in r.0.pending && r.0.pending[j] == st.pending[j]
    ensures r.0.pending.Keys <= st.pending.Keys + {roomJid}
    ensures |st.sent| <= |r.0.sent| <= |st.sent| + 1 && r.0.sent[..|st.sent|] == st.sent
    ensures r.1.Issued? ==>
      var req := Request(st.nextId, roomJid, if st.reg.chats[roomJid].roomType == Group then 1 else 0,
                         UserHashes(st.reg.chats[roomJid], st.meJid, st.contacts));
      && r.1.id == st.nextId
      && r.0 == st.(pending := st.pending[roomJid := req], nextId := st.nextId + 1, sent := st.sent + [req])
  {
    var room := st.reg.chats[roomJid];
    if Truthy(room.chatId) then (st, AlreadyKnown)
    else if roomJid in st.pending then (st, JoinedPending(st.pending[roomJid].id))
    else
      var users := UserHashes(room, st.meJid, st.contacts);
      if |users| == 0 then (st, NoKnownParticipants)
      else
        var req := Request(st.nextId, roomJid, if room.roomType == Group then 1 else 0, users);
        assert (st.sent + [req])[..|st.sent|] == st.sent;
        (st.(pending := st.pending[roomJid := req], nextId := st.nextId + 1, sent := st.sent + [req]),
         Issued(st.nextId))
  }

  /** The chat-id-gated `join` called from the success callback: with a chat
      id the gate passes at once and the join runs (an assertion failure
      leaves the state as it is); without one the gate retrieves again. */
  function GatedJoin(st: Resolver, roomJid: string): (r: Resolver)
    requires roomJid in st.reg.chats
    ensures r.reg.chats == st.reg.chats
    ensures r.pending.Keys <= st.pending.Keys + {roomJid}
    ensures forall j :: j in st.pending ==> j in r.pending && r.pending[j] == st.pending[j]
    ensures forall c :: c in st.reg.chatIdToRoomJid && c != st.reg.chats[roomJid].chatId ==>
      c in r.reg.chatIdToRoomJid && r.reg.chatIdToRoomJid[c] == st.reg.chatIdToRoomJid[c]
    ensures r.reg.chatIdToRoomJid.Keys <= st.reg.chatIdToRoomJid.Keys + {st.reg.chats[roomJid].chatId}
    ensures Truthy(st.reg.chats[roomJid].chatId) ==> r.sent == st.sent
    ensures |st.sent| <= |r.sent| <= |st.sent| + 1 && r.sent[..|st.sent|] == st.sent
    ensures r.meJid == st.meJid && r.contacts == st.contacts
    ensures Truthy(st.reg.chats[roomJid].chatId) ==>
      var j := Join(st.reg, st.reg.chats[roomJid]);
      r == if j.Ok? then st.(reg := j.value.0, joins := st.joins + [j.value.1]) else st
  {
    var room := st.reg.chats[roomJid];
    if Truthy(room.chatId) then
      match Join(st.reg, room)
      case Ok((reg', cmd)) => st.(reg := reg', joins := st.joins + [cmd])
      case Err(_) => st
    else Retrieve(st, roomJid).0
  }

  /** The success callback before its `join`: the request's entry is gone,
      the room settled, and the answer's URL, chat id and shard are copied
      into the room; no other room, request or registration is touched. */
  function Adopt(st: Resolver, roomJid: string, answer: McResponse): (r: Resolver)
    requires roomJid in st.pending && roomJid in st.reg.chats
    ensures r.reg.chats.Keys == st.reg.chats.Keys
    ensures r.reg.chats[roomJid] ==
      st.reg.chats[roomJid].(chatdUrl := answer.url, chatId := answer.id, chatShard := answer.cs)
    ensures forall j :: j in st.reg.chats && j != roomJid ==> r.reg.chats[j] == st.reg.chats[j]
    ensures r.pending == st.pending - {roomJid} && r.settled == st.settled + [roomJid]
    ensures r.reg.chatIdToRoomJid == st.reg.chatIdToRoomJid
    ensures r.sent == st.sent && r.joins == st.joins && r.meJid == st.meJid && r.contacts == st.contacts
  {
    var room := st.reg.chats[roomJid].(chatdUrl := answer.url, chatId := answer.id, chatShard := answer.cs);
    st.(pending := st.pending - {roomJid}, settled := st.settled + [roomJid],
        reg := st.reg.(chats := st.reg.chats[roomJid := room]))
  }

  /** Settling the request in flight for `roomJid`: the entry goes first,
      whatever the outcome; a response (`Some`) is copied into the room and
      then the room is joined; a failure (`None`) changes nothing else. */
  function Settle(st: Resolver, roomJid: string, resp: Option<McResponse>): (r: Resolver)
    requires roomJid in st.pending && roomJid in st.reg.chats
    ensures r.settled == st.settled + [roomJid]
    ensures resp.None? ==> r == st.(pending := st.pending - {roomJid}, settled := st.settled + [roomJid])
    ensures resp.Some? ==> roomJid in r.reg.chats
    ensures resp.Some? ==>
      r.reg.chats[roomJid] ==
        st.reg.chats[roomJid].(chatdUrl := resp.value.url, chatId := resp.value.id, chatShard := resp.value.cs)
    ensures resp.Some? && Truthy(resp.value.id) ==> roomJid !in r.pending
    ensures resp.Some? && Truthy(resp.value.id) && resp.value.cs.Some? && Truthy(resp.value.url) ==>
      && r.joins == st.joins + [JoinCommand(resp.value.id, resp.value.cs.value, resp.value.url)]
      && resp.value.id in r.reg.chatIdToRoomJid && r.reg.chatIdToRoomJid[resp.value.id] == st.reg.chats[roomJid].roomJid
    // nothing else changes: other rooms, other requests, other registrations
    ensures r.reg.chats.Keys == st.reg.chats.Keys
    ensures forall j :: j in st.reg.chats && j != roomJid ==> r.reg.chats[j] == st.reg.chats[j]
    ensures forall j :: j in st.pending && j != roomJid ==> j in r.pending && r.pending[j] == st.pending[j]
    ensures forall j :: j in r.pending && j != roomJid ==> j in st.pending
    ensures forall c :: c in st.reg.chatIdToRoomJid && (resp.None? || c != resp.value.id) ==>
      c in r.reg.chatIdToRoomJid && r.reg.chatIdToRoomJid[c] == st.reg.chatIdToRoomJid[c]
    ensures r.reg.chatIdToRoomJid.Keys <= st.reg.chatIdToRoomJid.Keys + (if resp.Some? then {resp.value.id} else {})
    // a new request goes out only from the re-retrieval of a response without a chat id
    ensures resp.None? || Truthy(resp.value.id) ==> r.sent == st.sent
    ensures |st.sent| <= |r.sent| <= |st.sent| + 1 && r.sent[..|st.sent|] == st.sent
    ensures r.meJid == st.meJid && r.contacts == st.contacts
  {
    match resp
    case None => st.(pending := st.pending - {roomJid}, settled := st.settled + [roomJid])
    case Some(answer) => GatedJoin(Adopt(st, roomJid, answer), roomJid)
  }

  /** What happens to the resolver: a caller asks for a room's chat id, or
      the request in flight for a room settles. */
  datatype Event = Ask(roomJid: string) | Answer(roomJid: string, resp: Option<McResponse>)

  function Step(st: Resolver, ev: Event): Resolver {
    match ev
    case Ask(jid) => if jid in st.reg.chats then Retrieve(st, jid).0 else st
    case Answer(jid, resp) =>
      // a promise settles once: an answer without a request in flight is no event
      if jid in st.pending && jid in st.reg.chats then Settle(st, jid, resp) else st
  }

  function Run(st: Resolver, evs: seq<Event>): Resolver
    decreases |evs|
  {
    if |evs| == 0 then st else Run(Step(st, evs[0]), evs[1..])
  }

  function SentFor(sent: seq<Request>, roomJid: string): nat
    decreases |sent|
  {
    if |sent| == 0 then 0
    else SentFor(sent[..|sent| - 1], roomJid) + (if sent[|sent| - 1].roomJid == roomJid then 1 else 0)
  }

  function SettledFor(settled: seq<string>, roomJid: string): nat
    decreases |settled|
  {
    if |settled| == 0 then 0
    else SettledFor(settled[..|settled| - 1], roomJid) + (if settled[|settled| - 1] == roomJid then 1 else 0)
  }

  /** Every room has as many requests issued as settled, plus one while a
      request is in flight; pending entries are keyed by their own room. */
  ghost predicate SingleFlight(st: Resolver) {
    && (forall jid :: jid in st.pending ==> st.pending[jid].roomJid == jid)
    && (forall jid :: SentFor(st.sent, jid) == SettledFor(st.settled, jid) + (if jid in st.pending then 1 else 0))
  }

  lemma {:induction false} SentForAppend(sent: seq<Request>, req: Request, jid: string)
    ensures SentFor(sent + [req], jid) == SentFor(sent, jid) + (if req.roomJid == jid then 1 else 0)
  {
    assert (sent + [req])[..|sent|] == sent;
  }

  lemma {:induction false} SettledForAppend(settled: seq<string>, x: string, jid: string)
    ensures SettledFor(settled + [x], jid) == SettledFor(settled, jid) + (if x == jid then 1 else 0)
  {
    assert (settled + [x])[..|settled|] == settled;
  }

  /** Recording a new request for a room with none in flight keeps the
      invariant. */
  lemma IssuePreserves(st: Resolver, req: Request)
    requires SingleFlight(st) && req.roomJid !in st.pending
    ensures SingleFlight(st.(pending := st.pending[req.roomJid := req], nextId := st.nextId + 1, sent := st.sent + [req]))
  {
    var r := st.(pending := st.pending[req.roomJid := req], nextId := st.nextId + 1, sent := st.sent + [req]);
    forall jid | jid in r.pending
      ensures r.pending[jid].roomJid == jid
    {
      if jid != req.roomJid { assert r.pending[jid] == st.pending[jid]; }
    }
    forall jid
      ensures SentFor(r.sent, jid) == SettledFor(r.settled, jid) + (if jid in r.pending then 1 else 0)
    {
      SentForAppend(st.sent, req, jid);
      assert (jid in r.pending) == (jid in st.pending || jid == req.roomJid);
    }
  }

  lemma RetrievePreserves(st: Resolver, roomJid: string)
    requires roomJid in st.reg.chats && SingleFlight(st)
    ensures SingleFlight(Retrieve(st, roomJid).0)
  {
    if Retrieve(st, roomJid).1.Issued? {
      var room := st.reg.chats[roomJid];
      var req := Request(st.nextId, roomJid, if room.roomType == Group then 1 else 0,
                         UserHashes(room, st.meJid, st.contacts));
      IssuePreserves(st, req);
    }
  }

  lemma SettlePreserves(st: Resolver, roomJid: string, resp: Option<McResponse>)
    requires roomJid in st.pending && roomJid in st.reg.chats && SingleFlight(st)
    ensures SingleFlight(Settle(st, roomJid, resp))
  {
    var st1 := st.(pending := st.pending - {roomJid}, settled := st.settled + [roomJid]);
    forall jid
      ensures SentFor(st1.sent, jid) == SettledFor(st1.settled, jid) + (if jid in st1.pending then 1 else 0)
    {
      SettledForAppend(st.settled, roomJid, jid);
    }
    assert SingleFlight(st1);
    match resp
    case None =>
    case Some(answer) =>
      var st2 := Adopt(st, roomJid, answer);
      assert SingleFlight(st2);
      if !Truthy(answer.id) {
        RetrievePreserves(st2, roomJid);
      }
  }

  /** Along any sequence of asks and answers, no room ever has two `mcc`
      requests in flight: callers arriving meanwhile join the pending one,
      and the entry is dropped whenever a request settles. */
  lemma {:induction false} AtMostOneInFlight(st: Resolver, evs: seq<Event>, roomJid: string)
    requires SingleFlight(st)
    ensures SingleFlight(Run(st, evs))
    ensures SentFor(Run(st, evs).sent, roomJid) <= SettledFor(Run(st, evs).settled, roomJid) + 1
    decreases |evs|
  {
    if |evs| == 0 {
    } else {
      var next := Step(st, evs[0]);
      if evs[0].Ask? {
        if evs[0].roomJid in st.reg.chats { RetrievePreserves(st, evs[0].roomJid); }
      } else if evs[0].roomJid in st.pending && evs[0].roomJid in st.reg.chats {
        SettlePreserves(st, evs[0].roomJid, evs[0].resp);
      }
      AtMostOneInFlight(next, evs[1..], roomJid);
    }
  }
}

=== FILE: rooms.dfy ===
/** Decisions on rooms: `openChatFromApi` (admission, naming, adopting the
    chatd coordinates of an existing room) and `_getKarereObjFromChatdObj`
    (outgoing versus incoming messages). */
module Rooms {
  import opened Js
  import opened Chat

  /** A chat action packet: `u` (the participants; `None` when missing),
      `g` (1 for a group chat), `cs`, `url`, `ou` (the creator) and `n`. */
  datatype ActionPacket = ActionPacket(
    id: string,
    u: Option<seq<string>>,
    g: int,
    cs: Option<int>,
    url: string,
    ou: string,
    n: bool
  )

  /** The room-name generators and the JID mapping live in the chat core;
      here they are given. */
  datatype Naming = Naming(
    jidOf: string -> string,
    privateRoomName: seq<string> -> string,
    groupRoomName: string -> string,
    xmppDomain: string
  )

  datatype OpenDecision =
    | NoParticipants         // no participants: enumerating them throws
    | IgnoredSingleUser      // fewer than two participants
    | UrlLookupFailed        // the `mcurl` request failed, so nothing more happens
    | OpenNew(roomJid: string, jids: seq<string>, roomType: RoomType, chatId: string, shard: Option<int>, url: string, announce: bool)
    | AdoptIds(roomJid: string, chatId: string, shard: Option<int>, url: string)
    | KeepExisting(roomJid: string)

  datatype OpenOutcome = OpenOutcome(urlLookup: bool, decision: OpenDecision)

  /** The generated room name: from the participants for a private chat,
      from the chat id for a group chat. */
  function RoomName(ap: ActionPacket, jids: seq<string>, naming: Naming): string {
    if ap.g != 1 then naming.privateRoomName(jids) else naming.groupRoomName(ap.id)
  }

  function ConferenceSuffix(naming: Naming): string {
    "@conference." + naming.xmppDomain
  }

  /** The room JID: the generated name on the conference host. */
  function RoomJidFor(ap: ActionPacket, jids: seq<string>, naming: Naming): (r: string)
    ensures |r| >= |ConferenceSuffix(naming)|
    ensures r[|r| - |ConferenceSuffix(naming)|..] == ConferenceSuffix(naming)
    ensures r[..|r| - |ConferenceSuffix(naming)|] == RoomName(ap, jids, naming)
  {
    RoomName(ap, jids, naming) + ConferenceSuffix(naming)
  }

  /** Two packets name the same room exactly when their generated names
      agree: the shared suffix neither merges nor splits rooms. */
  lemma SameRoomIffSameName(ap1: ActionPacket, jids1: seq<string>, ap2: ActionPacket, jids2: seq<string>, naming: Naming)
    ensures RoomJidFor(ap1, jids1, naming) == RoomJidFor(ap2, jids2, naming) <==>
      RoomName(ap1, jids1, naming) == RoomName(ap2, jids2, naming)
  {
    var a := RoomJidFor(ap1, jids1, naming);
    var b := RoomJidFor(ap2, jids2, naming);
    if a == b {
      assert a[..|a| - |ConferenceSuffix(naming)|] == b[..|b| - |ConferenceSuffix(naming)|];
    }
  }

  /** `openChatFromApi`. `mcurl` is the answer of the URL request, if one is
      made (`None` when it fails). The room is looked up before that request
      and the decision uses that lookup. */
  function OpenChatFromApi(ap: ActionPacket, isMcf: bool, me: string, chats: map<string, Room>,
                           naming: Naming, mcurl: Option<string>): (r: OpenOutcome)
    ensures ap.u.None? ==> r == OpenOutcome(false, NoParticipants)
    ensures ap.u.Some? && |ap.u.value| < 2 ==> r == OpenOutcome(false, IgnoredSingleUser)
    ensures ap.u.Some? && |ap.u.value| >= 2 ==>
      var jids := Map(ap.u.value, naming.jidOf);
      var roomJid := RoomJidFor(ap, jids, naming);
      && (r.urlLookup <==> !Truthy(ap.url) && (roomJid !in chats || !Truthy(chats[roomJid].chatdUrl)))
      && (r.urlLookup && mcurl.None? <==> r.decision == UrlLookupFailed)
      && (r.decision.OpenNew? <==> roomJid !in chats && !(r.urlLookup && mcurl.None?))
      && (r.decision.AdoptIds? <==>
            roomJid in chats && !Truthy(chats[roomJid].chatId) && !(r.urlLookup && mcurl.None?))
      && (r.decision.KeepExisting? <==>
            roomJid in chats && Truthy(chats[roomJid].chatId) && !(r.urlLookup && mcurl.None?))
      && (r.decision.OpenNew? || r.decision.AdoptIds? || r.decision.KeepExisting? ==> r.decision.roomJid == roomJid)
      && (r.decision.OpenNew? ==> r.decision.jids == jids)
    ensures r.decision.OpenNew? ==>
      && r.decision.roomType == (if ap.g == 1 then Group else Private)
      && r.decision.chatId == ap.id && r.decision.shard == ap.cs
      && r.decision.url == (if r.urlLookup then mcurl.value else ap.url)
      && (r.decision.announce <==> !isMcf && ap.ou == me && !ap.n)
    ensures r.decision.AdoptIds? ==>
      && r.decision.chatId == ap.id && r.decision.shard == ap.cs
      && r.decision.url == (if r.urlLookup then mcurl.value else ap.url)
  {
    match ap.u
    case None => OpenOutcome(false, NoParticipants)
    case Some(users) =>
      var jids := Map(users, naming.jidOf);
      if |jids| < 2 then OpenOutcome(false, IgnoredSingleUser)
      else
        var roomJid := RoomJidFor(ap, jids, naming);
        var existing := if roomJid in chats then Some(chats[roomJid]) else None;
        var lookup := !Truthy(ap.url) && (existing.None? || !Truthy(existing.value.chatdUrl));
        if lookup && mcurl.None? then OpenOutcome(true, UrlLookupFailed)
        else
          var url := if lookup then mcurl.value else ap.url;
          match existing
          case None =>
            OpenOutcome(lookup, OpenNew(roomJid, jids, if ap.g == 1 then Group else Private, ap.id, ap.cs, url,
                                        !isMcf && ap.ou == me && !ap.n))
          case Some(room) =>
            if !Truthy(room.chatId) then OpenOutcome(lookup, AdoptIds(roomJid, ap.id, ap.cs, url))
            else OpenOutcome(lookup, KeepExisting(roomJid))
  }

  /** Applying the decision to an existing room copies the packet's chatd
      coordinates only into a room that had no chat id. */
  function Adopt(chats: map<string, Room>, d: OpenDecision): (r: map<string, Room>)
    requires d.AdoptIds? ==> d.roomJid in chats
    ensures r.Keys == chats.Keys
    ensures d.AdoptIds? ==>
      && r[d.roomJid].chatId == d.chatId && r[d.roomJid].chatShard == d.shard
      && r[d.roomJid].chatdUrl == d.url
    ensures forall jid :: jid in chats && !(d.AdoptIds? && jid == d.roomJid) ==> r[jid] == chats[jid]
  {
    match d
    case AdoptIds(jid, id, cs, url) => chats[jid := chats[jid].(chatId := id, chatShard := cs, chatdUrl := url)]
    case _ => chats
  }

  /** A room's chat id, once set, is never overwritten by a later action
      packet. */
  lemma ChatIdIsKeptByPackets(ap: ActionPacket, isMcf: bool, me: string, chats: map<string, Room>,
                              naming: Naming, mcurl: Option<string>, jid: string)
    requires jid in chats && Truthy(chats[jid].chatId)
    ensures var d := OpenChatFromApi(ap, isMcf, me, chats, naming, mcurl).decision;
      (d.AdoptIds? ==> d.roomJid in chats) && Adopt(chats, d)[jid] == chats[jid]
  {
  }

  /** Replaying a packet that gave an existing room its chat id changes
      nothing more: the room now has an id, so the replay keeps it. */
  lemma ReplayAfterAdoptKeeps(ap: ActionPacket, isMcf: bool, me: string, chats: map<string, Room>,
                              naming: Naming, mcurl: Option<string>)
    requires Truthy(ap.id)
    requires OpenChatFromApi(ap, isMcf, me, chats, naming, mcurl).decision.AdoptIds?
    ensures var d := OpenChatFromApi(ap, isMcf, me, chats, naming, mcurl).decision;
      d.roomJid in chats &&
      var again := OpenChatFromApi(ap, isMcf, me, Adopt(chats, d), naming, mcurl).decision;
      (again.KeepExisting? || again == UrlLookupFailed) && Adopt(Adopt(chats, d), again) == Adopt(chats, d)
  {
    var d := OpenChatFromApi(ap, isMcf, me, chats, naming, mcurl).decision;
    var jids := Map(ap.u.value, naming.jidOf);
    assert d.roomJid == RoomJidFor(ap, jids, naming);
  }

  // ------------------------------------------------------ chatd -> karere

  datatype ChatdMessage = ChatdMessage(chatId: string, userId: string, messageId: string, message: string, ts: int, seen: bool)

  datatype KarereMessage =
    | Outgoing(toJid: string, fromJid: string, messageId: string, contents: string, delay: int, roomJid: string, seen: bool)
    | Incoming(toJid: string, fromJid: string, messageId: string, contents: string, delay: int, roomJid: string, seen: bool)

  /** `_getKarereObjFromChatdObj`: a message without a sender, or from the
      user, is an outgoing (sent) message; any other is incoming. An unknown
      chat id or a missing room throws. */
  function ToKarere(reg: Registry, ev: ChatdMessage, me: string, jidOf: string -> string): (r: Result<KarereMessage, LookupFault>)
    ensures r.Ok? <==> FindRoom(reg, ev.chatId).Ok?
    ensures r.Ok? ==> (r.value.Outgoing? <==> !Truthy(ev.userId) || ev.userId == me)
    ensures r.Ok? ==>
      var room := FindRoom(reg, ev.chatId).value;
      && r.value.toJid == room.roomJid && r.value.roomJid == room.roomJid
      && r.value.fromJid == jidOf(ev.userId) && r.value.messageId == ev.messageId
      && r.value.contents == ev.message && r.value.delay == ev.ts && r.value.seen == ev.seen
  {
    match FindRoom(reg, ev.chatId)
    case Err(fault) => Err(fault)
    case Ok(room) =>
      if !Truthy(ev.userId) || ev.userId == me then
        Ok(Outgoing(room.roomJid, jidOf(ev.userId), ev.messageId, ev.message, ev.ts, room.roomJid, ev.seen))
      else
        Ok(Incoming(room.roomJid, jidOf(ev.userId), ev.messageId, ev.message, ev.ts, room.roomJid, ev.seen))
  }

  /** Once a room is joined, every chatd message carrying its chat id
      becomes a karere message addressed to that room, in the direction
      its sender decides. */
  lemma JoinedRoomReceivesMessages(reg: Registry, room: Room, ev: ChatdMessage, me: string, jidOf: string -> string)
    requires Join(reg, room).Ok?
    requires room.roomJid in reg.chats && Truthy(room.roomJid) && reg.chats[room.roomJid].roomJid == room.roomJid
    requires ev.chatId == room.chatId
    ensures var r := ToKarere(Join(reg, room).value.0, ev, me, jidOf);
      && r.Ok? && r.value.toJid == room.roomJid && r.value.roomJid == room.roomJid
      && (r.value.Incoming? <==> Truthy(ev.userId) && ev.userId != me)
  {
    JoinRoutesEvents(reg, room);
  }
}

=== FILE: send.dfy ===
/** `sendMessage` and `protocolHandlerRequiresKeysInit`: who a message is
    encrypted to, which form of `encryptTo` is used, and how the returned
    promise ends. */
module Send {
  import opened Js
  import Guards

  /** The sender-key ids of a protocol handler; `None` is `null`. */
  datatype SenderKeys = SenderKeys(previousKeyId: Option<string>, keyId: Option<string>)

  /** A new session (no previous and no current key id) needs a sender key
      before anything can be encrypted. */
  function RequiresKeysInit(keys: SenderKeys): (r: bool)
    ensures r <==> keys == SenderKeys(None, None)
  {
    keys.previousKeyId.None? && keys.keyId.None?
  }

  /** The two forms of the `encryptTo` call. */
  datatype EncryptCall = EncryptToOne(message: string, target: string) | EncryptToAll(message: string)

  /** What `encryptTo` does: throws, returns `false`, or returns a ciphertext. */
  datatype EncryptResult = EncryptThrew | EncryptFalse | Ciphertext(data: string)

  datatype SendOutcome =
    | Submitted(data: string)  // resolves with the chatd submit of this ciphertext
    | Declined                 // rejects: `encryptTo` returned false
    | Unsettled                // an exception left the promise pending

  /** The plan `sendMessage` carries out. `keysInit` is whether
      `updateSenderKey` is called first. */
  datatype SendPlan = SendPlan(targets: seq<string>, keysInit: bool, call: Option<EncryptCall>, outcome: SendOutcome)

  /** The room members other than the user: `removeValue` on a copy. */
  function Targets(members: seq<string>, me: string): (r: seq<string>)
    ensures multiset(r) == multiset(members) - multiset{me}
    ensures multiset(members)[me] <= 1 ==> me !in r
  {
    var r := RemoveValue(members, me);
    assert me in r ==> multiset(r)[me] > 0;
    r
  }

  /** `sendMessage` once the key fetches for the targets have settled.
      `handler` is the room's protocol handler (`None` when there is none,
      whose key check throws before anything is encrypted), and `encrypt`
      is strongvelope's answer to a call. */
  function SendMessage(members: seq<string>, me: string, message: string,
                       handler: Option<SenderKeys>, encrypt: EncryptCall -> EncryptResult): (r: SendPlan)
    ensures r.targets == Targets(members, me)
    ensures handler.None? ==> r.call.None? && r.outcome == Unsettled && !r.keysInit
    ensures handler.Some? ==> (r.keysInit <==> RequiresKeysInit(handler.value))
    ensures handler.Some? ==> r.call.Some?
    ensures r.call.Some? ==>
      (r.call.value.EncryptToOne? <==> |r.targets| == 1)
      && r.call.value.message == message
      && (r.call.value.EncryptToOne? ==> r.call.value.target == r.targets[0])
    ensures r.call.Some? ==>
      && (r.outcome == Declined <==> encrypt(r.call.value) == EncryptFalse)
      && (r.outcome == Unsettled <==> encrypt(r.call.value) == EncryptThrew)
      && (r.outcome.Submitted? <==> encrypt(r.call.value).Ciphertext?)
      && (r.outcome.Submitted? ==> r.outcome.data == encrypt(r.call.value).data)
  {
    var targets := Targets(members, me);
    match handler
    case None => SendPlan(targets, false, None, Unsettled)
    case Some(keys) =>
      var call := if |targets| == 1 then EncryptToOne(message, targets[0]) else EncryptToAll(message);
      var outcome := match encrypt(call)
        case EncryptThrew => Unsettled
        case EncryptFalse => Declined
        case Ciphertext(data) => Submitted(data);
      SendPlan(targets, RequiresKeysInit(keys), Some(call), outcome)
  }

  /** With no other member the multi-recipient form is still called: the
      integration does not refuse an empty target list itself. */
  lemma AloneStillEncrypts(me: string, message: string, keys: SenderKeys, encrypt: EncryptCall -> EncryptResult)
    ensures SendMessage([me], me, message, Some(keys), encrypt).call == Some(EncryptToAll(message))
    ensures SendMessage([], me, message, Some(keys), encrypt).call == Some(EncryptToAll(message))
  {
    assert Targets([me], me) == [];
  }

  /** `sendMessage` through its gates: it runs only once the chat id and the
      shard are known; a gate failure rejects and a hanging gate leaves the
      promise pending, in both cases without encrypting. */
  function GuardedSend(env: Guards.GateEnv, members: seq<string>, me: string, message: string,
                       handler: Option<SenderKeys>, encrypt: EncryptCall -> EncryptResult): (r: Option<SendPlan>)
    ensures r.Some? <==> Guards.ChatIdEventuallyKnown(env) && Guards.ShardEventuallyKnown(env)
    ensures r.Some? ==> r.value == SendMessage(members, me, message, handler, encrypt)
  {
    Guards.RunsOnlyWhenReady(Guards.SendMessageCmd(message), env);
    if Guards.Invoke(Guards.SendMessageCmd(message), env) == Guards.Ran then Some(SendMessage(members, me, message, handler, encrypt))
    else None
  }
}
